=== FILE: README.md ===
# Text-Summarizer local text processing, modelled in Dafny

This project models the three local, self-contained text functions of the
Text-Summarizer app (`hooks/useSummarizer.ts`) and proves what they do:

- `validateText` decides whether a text may be summarized. It runs an ordered
  chain of checks: blank, too short, too long, too few words. Each check that
  fails has its own message (module `Validator`).
- `extractiveSummary` is the offline summarizer (modules `Summarizer` and
  `Ranking`). It cuts the text into sentences on runs of `.`, `!` and `?`,
  keeping fragments longer than ten characters once trimmed. It counts the
  lower-cased words longer than three characters over the whole text, scores
  each sentence by the counts of its words, keeps the best `maxSentences` with
  a stable sort, and joins them in reading order with `". "` and a final `"."`.
- `chunkText` cuts a long text into chunks of whole sentence fragments
  (module `Chunker`). It fills each chunk greedily, appending `fragment + ". "`
  while the chunk and the next fragment fit in `maxChunkSize`.

The JavaScript string operations these functions use are in module `JsText`:
`split` with a one-or-more character class, `match(/\b\w+\b/g) || []`, `trim`,
`toLowerCase` and `join`. Module `WordFreqObject` models the word table as
the object literal `{}` it is in JavaScript, for the second finding below.

`GroupFragments` and `CountWords` are methods with loops, as the source's
`for` and `forEach` loops are; `ChunkText` is the method that calls
`GroupFragments` on the split path. Each is proved against a specification
function or predicate (`GreedyGroups`, `Frequency`), and the
properties the source promises are lemmas about those. The validator, the
scoring, the sorts and the join are functions, as the source's expressions
are. The constants of `APP_LIMITS` (constants/index.ts:46-51) appear as
`Validator.MinInputLength`, `Validator.MaxInputLength` and
`Validator.MinWordCount`.

## Model

| member | source | states |
|---|---|---|
| `Validator.ValidateText` | hooks/useSummarizer.ts:166-185 | For each outcome, the exact condition it is returned under. Empty means all white space. Too short and too long use the raw length. Too few words means fewer than 10 split pieces once the earlier checks pass. Valid exactly when no check fails. |
| `Validator.WordCountPieces` | hooks/useSummarizer.ts:179-182 | `text.split(/\s+/).length` equals the number of words, plus one for leading white space and one for trailing white space. |
| `Validator.IsBlank` | hooks/useSummarizer.ts:167 | The blank test holds exactly when every character is white space. |
| `Validator.WordCount` | hooks/useSummarizer.ts:179 | The piece count is at least 1, even for the empty text, and never below the number of words. |
| `Validator.ValidText` | hooks/useSummarizer.ts:166-185 | An accepted text is not blank and its raw length is within 50..5000. It is only guaranteed 8 words, not 10. |
| `Validator.ValidateTextByWords` | hooks/useSummarizer.ts:179-182 | The corrected check. It accepts only texts of at least 10 words. It accepts every text the original accepts that has 10 words, and nothing the original rejects. |
| `Validator.PaddedSplit` | hooks/useSummarizer.ts:179 | `n` copies of a word, with a space between them and one at each end, split on `\s+` into the copies plus an empty piece at each end. The words of that text are exactly the copies. |
| `Validator.EightWordsAccepted` | hooks/useSummarizer.ts:179-182 | A 65-character text of eight words with a space at each end passes `validateText`. The corrected check rejects it as too few words. |
| `JsText.Trim` | hooks/useSummarizer.ts:167 | `trim` never lengthens. Its result has no white space at either end. It is empty exactly when the text is all white space. |
| `JsText.TrimAround` | hooks/useSummarizer.ts:119 | Trimming white space around a trimmed core gives back exactly the core. |
| `JsText.TrimNoneMatch` | hooks/useSummarizer.ts:119 | Trimming adds no character of a class the text did not have. |
| `JsText.Lower` | hooks/useSummarizer.ts:102 | Lower-casing keeps the length and maps each character on its own. |
| `JsText.LowerChar` | hooks/useSummarizer.ts:102 | An ASCII capital `A`-`Z` becomes the matching `a`-`z`, and every other character stays as it is. So no ASCII capital is left, and whether a character is a word character or ends a sentence is kept. |
| `JsText.LowerIgnoresCase` | hooks/useSummarizer.ts:102 | Two texts lower-case alike exactly when they have the same length and differ at most in the case of ASCII letters. So "Dogs" and "dogs" are one key of the word table. |
| `JsText.Split` | hooks/useSummarizer.ts:94 | A split has at least one piece, and no piece holds a delimiter. `SplitJoinRuns` fixes where it cuts: once at each maximal delimiter run, whatever its length. |
| `JsText.SplitKeepsText` | hooks/useSummarizer.ts:196 | The pieces of a split, concatenated, are the text with every delimiter removed and nothing else. |
| `JsText.SplitEmptyPieces` | hooks/useSummarizer.ts:179 | Only the first and last pieces can be empty. The first is empty exactly when the text is empty or starts with a delimiter. The last is empty exactly when the text is empty or ends with one. |
| `JsText.SplitJoinRuns` | hooks/useSummarizer.ts:94 | Split undoes joining with delimiter runs of any length. Pieces without delimiters, whose inner pieces are non-empty, joined with non-empty runs of delimiters, come back unchanged. So `"Wow?! Great"` splits into `Wow` and ` Great`. |
| `JsText.SplitJoin` | hooks/useSummarizer.ts:94 | Split undoes `join`: pieces without delimiters, whose inner pieces are non-empty, come back unchanged after joining with one delimiter. |
| `JsText.SplitCount` | hooks/useSummarizer.ts:179 | The number of pieces is the number of non-empty pieces, plus one for a leading delimiter run and one for a trailing one. |
| `JsText.Tokens` | hooks/useSummarizer.ts:102 | Every token that `match(/\b\w+\b/g)` finds (none when it finds nothing) is a non-empty run of `[A-Za-z0-9_]`. The tokens, concatenated in order, are every word character of the text, so none is lost. `TokensJoinRuns` says they are the maximal runs. |
| `JsText.TokensJoinRuns` | hooks/useSummarizer.ts:102 | Words separated by non-empty runs of non-word characters, with an optional such run before and after, give back exactly those words in order. So `" dogs, cats."` gives `dogs` and `cats`: a token never spans a separator nor stops inside a word. |
| `JsText.TokensJoin` | hooks/useSummarizer.ts:102 | The tokens of words joined by single spaces are exactly those words, in order. So a token is never cut short nor merged with the next one. |
| `JsText.Join` | hooks/useSummarizer.ts:132 | The joined text begins with its first piece. `JoinLength` gives its length and `SplitJoin` is its inverse. |
| `Summarizer.LongFragments` | hooks/useSummarizer.ts:94 | A fragment is in the result exactly when it is an input fragment whose trimmed length is over 10. The result is never longer than the input. |
| `Summarizer.LongFragmentsAppend` | hooks/useSummarizer.ts:94 | Filtering a concatenation filters each part and keeps the parts in order. With the one-fragment case, this fixes the result: long fragments in input order, with repeats. |
| `Summarizer.Sentences` | hooks/useSummarizer.ts:94 | A fragment is a sentence exactly when it is a piece of the split on `[.!?]+` and is long once trimmed. No sentence holds a `.`, `!` or `?`. |
| `Summarizer.Lookup` | hooks/useSummarizer.ts:107 | Reading `wordFreq[word]`, falling back to 0, gives the stored count of a key, and 0 for a missing one. |
| `Summarizer.Frequency` | hooks/useSummarizer.ts:105-109 | Every key of the table is longer than 3 characters and counts at least 1. `FrequencyCounts` gives the exact keys and counts. |
| `Summarizer.TextFrequency` | hooks/useSummarizer.ts:101-109 | The keys of the whole-text table are exactly the lower-cased words of the text longer than 3 characters. |
| `Summarizer.FrequencyCounts` | hooks/useSummarizer.ts:101-109 | The table's keys are exactly the words longer than three characters. Each is mapped to its number of occurrences, which is at least 1. |
| `Summarizer.CountWords` | hooks/useSummarizer.ts:105-109 | The counting loop builds the table `Frequency` specifies. Its keys are exactly the words longer than 3, each with its occurrence count of at least 1. |
| `Summarizer.Score` | hooks/useSummarizer.ts:114-116 | The `reduce` adds each word's count, so the score is at least the count of any one of its words. |
| `Summarizer.ScorePositive` | hooks/useSummarizer.ts:114-116 | A sentence scores above zero exactly when one of its words is in the table. |
| `Summarizer.ScoreSentences` | hooks/useSummarizer.ts:112-123 | One record per sentence, each with its own position as index, so the indices ascend. |
| `Summarizer.ExtractiveSummary` | hooks/useSummarizer.ts:92-133 | With at most `maxSentences` sentences the result is the text unchanged. Otherwise it is the selected sentences joined with `". "` and ended by `"."`. |
| `Summarizer.TopOfScored` | hooks/useSummarizer.ts:112-130 | Exactly `maxSentences` records are kept, in strictly ascending index. Each is the trimmed sentence at its index with that sentence's score. Each kept one scores at least as much as each dropped one, and a tie keeps the earlier sentence. |
| `Summarizer.SelectedSentences` | hooks/useSummarizer.ts:94-130 | The same selection guarantees, stated for a text and the frequency table of the whole text. |
| `Summarizer.Texts` | hooks/useSummarizer.ts:130 | `.map(s => s.sentence)` keeps the number and the order of the records and takes each one's text. |
| `Summarizer.Render` | hooks/useSummarizer.ts:132 | The summary ends in `.` and is the sentences' length plus 2 per separator plus 1. `Resegment` is its inverse. |
| `Summarizer.Resegment` | hooks/useSummarizer.ts:132 | Splitting a rendered summary into sentences again and trimming gives back exactly its sentences. This holds when each sentence is trimmed, has no `.`, `!` or `?`, and is longer than 10. |
| `Summarizer.TopTextsAreSentences` | hooks/useSummarizer.ts:119 | Every selected text is trimmed, has no sentence punctuation and is longer than 10 characters. |
| `Summarizer.SummaryResegments` | hooks/useSummarizer.ts:119-132 | The summary, split into sentences again and trimmed, is exactly the selected sentences in order. |
| `Ranking.RankByScore` | hooks/useSummarizer.ts:126-127 | The stable descending sort is a permutation. On records with ascending indices it orders by score, then by index. |
| `Ranking.OrderByIndex` | hooks/useSummarizer.ts:129 | The sort by index is a permutation that puts distinct indices in strictly ascending order. |
| `Ranking.TopSentences` | hooks/useSummarizer.ts:126-130 | Sort, slice and re-sort keep exactly `maxSentences` records, each from the input. |
| `Ranking.TopSentencesChoice` | hooks/useSummarizer.ts:126-130 | Sort, slice and re-sort keep exactly `maxSentences` records, all from the input and in ascending index. Each kept record outranks each dropped one. |
| `Chunker.Rendered` | hooks/useSummarizer.ts:201 | The accumulator of a non-empty group ends in `". "`. |
| `Chunker.ChunkText` | hooks/useSummarizer.ts:190-215 | A text that fits comes back as `[text]`. Otherwise the fragments of the unfiltered split are cut, in order, into non-empty greedy groups. There is one chunk per group, each the trim of `fragment + ". "` over the group, and none empty. The groups hold every character but the punctuation. |
| `Chunker.GroupFragments` | hooks/useSummarizer.ts:195-212 | The loop's chunks come from a grouping that covers the fragments in order. A fragment joined a group only when it fit, and a group was closed only when the next fragment did not fit. Each chunk is its group rendered and trimmed. |
| `Chunker.ChunkSizeBound` | hooks/useSummarizer.ts:200-206 | A chunk of two or more fragments is at most `maxChunkSize + 2` long before the trim and `maxChunkSize + 1` after it. A chunk of one fragment is that fragment plus `". "`, whatever its length. |
| `Chunker.ChunkNotEmpty` | hooks/useSummarizer.ts:203-212 | No chunk pushed on the split path is empty. |
| `Chunker.GreedyUnique` | hooks/useSummarizer.ts:199-208 | Only one grouping of a list of fragments satisfies the greedy rule, so the contract of `ChunkText` determines its chunks completely. |
| `WordFreqObject.Get` | hooks/useSummarizer.ts:107 | `wordFreq[key]` on `{}`. `__proto__` reads `Object.prototype`. An own key reads its value. `constructor`, when not an own key, reads the function `Object`. Any other key reads `undefined`. |
| `WordFreqObject.OrZero` | hooks/useSummarizer.ts:107 | The fallback to 0 is never `undefined`. It turns `undefined` into 0 and passes every other value through. |
| `WordFreqObject.Add` | hooks/useSummarizer.ts:107 | `+` gives a number exactly when both operands are numbers, and their sum then. Otherwise it gives a non-numeric string. |
| `WordFreqObject.Set` | hooks/useSummarizer.ts:107 | Assigning to `__proto__` leaves the object as it was. Any other key gets the value. |
| `WordFreqObject.CountWord` | hooks/useSummarizer.ts:106-108 | A word longer than 3 characters, other than `__proto__`, gets an own value. No other key changes. A short word or `__proto__` leaves the object as it was. |
| `WordFreqObject.CountAsWritten` | hooks/useSummarizer.ts:101-109 | The object the counting loop builds never has an own `__proto__`. Every value in it is a number or a string. |
| `WordFreqObject.ScoreAsWritten` | hooks/useSummarizer.ts:114-116 | The `reduce` always yields a value, never `undefined`. |
| `WordFreqObject.CountAsWrittenAgrees` | hooks/useSummarizer.ts:101-109 | Without `constructor` or `__proto__` among the words, the object holds the same keys and counts as the own-key table `Frequency`. |
| `WordFreqObject.ScoreAsWrittenAgrees` | hooks/useSummarizer.ts:112-116 | Under the same condition, every score is the number the own-key model computes. |
| `WordFreqObject.ConstructorCounterexample` | hooks/useSummarizer.ts:101-116 | For the single word `constructor`, the object stores a string instead of 1, and the sentence's score is a string. The own-key table counts 1 and scores 1. |
| `WordFreqObject.ProtoCounterexample` | hooks/useSummarizer.ts:101-116 | For the single word `__proto__`, nothing is stored but the score is a string. The own-key table counts 1 and scores 1. |
| `WordFreqObject.CompareScores` | hooks/useSummarizer.ts:127 | `b.score - a.score` is the difference of two number scores. It is 0, the NaN case that sorting reads as equal, once either score is not a number. |
| `WordFreqObject.ComparatorInconsistent` | hooks/useSummarizer.ts:127 | Once a score is a string, `b.score - a.score` calls it equal to both 2 and 1 while ordering 2 before 1, so the comparator is not consistent. |

## Left out

- `summarizeText` (hooks/useSummarizer.ts:18-86) is left out: it is network I/O to a remote model (HTTP request, status mapping, JSON probing).
- `getModelInfo` (hooks/useSummarizer.ts:138-161) is left out: it is a static lookup table with no behaviour.
- The API token (hooks/useSummarizer.ts:3) is a secret, not logic.
- constants/index.ts is configuration data; only `APP_LIMITS` is used, as named constants.
- JsText.Lower: only ASCII `A`-`Z` are lower-cased. `toLowerCase` also maps non-ASCII letters. That changes no token for most of them, because `\w` has no non-ASCII letter in either place, so `"Straße"` gives `stra` and `e` in both. The difference is the few characters `toLowerCase` maps into ASCII word characters. U+212A KELVIN SIGN becomes `k`, and U+0130 becomes `i` followed by U+0307. For `"\u212Aing"` JavaScript finds the counted word `king`, while the model finds `ing`, which is too short to count.
- JsText.Split, JsText.Tokens: the regular expressions `/[.!?]+/`, `/\s+/` and `/\b\w+\b/g` are modelled by their meaning, not by a regex engine. `\w` is `[A-Za-z0-9_]` and `\s` is the ECMAScript white-space and line-terminator set.
- String lengths are counted in Dafny characters. JavaScript counts UTF-16 code units, so a character outside the Basic Multilingual Plane counts twice there.
- `!text` for `null` or `undefined` is not modelled: the parameter is typed `string`, and the empty string is covered.
- `maxSentences` and `maxChunkSize` are natural numbers. Negative, fractional and `NaN` arguments are not modelled. The defaults 3 and 1000 are the caller's choice.
- Ranking.RankByScore, Ranking.OrderByIndex: the two in-place `Array.prototype.sort` calls are modelled on values, as a stable insertion sort. What is not captured is the in-place update and the engine's own algorithm. Stability is what ECMAScript requires.
- Summarizer.ExtractiveSummary uses the own-key table. What the object literal `{}` does with `constructor` and `__proto__` is modelled separately in `WordFreqObject` (second finding). The sort order once scores are strings is left to the engine and not modelled.
- Chunker.ChunkText: on the fast path the single chunk is the text itself, so `chunkText("", n)` returns `[""]`. Only split-path chunks are proved non-empty.
- The model follows the code in these places, where a reader might expect otherwise:
  - the too-short check uses the raw length, not the trimmed one;
  - a chunk may exceed `maxChunkSize` by the `". "` appended after the test, by 2 before the trim and by 1 after it, not only when one fragment is too long;
  - fragments are kept untrimmed for scoring and trimmed only for output.

## Findings

| source | as written | input that shows it | evidently intended | confidence | as-written member | corrected member |
|---|---|---|---|---|---|---|
| hooks/useSummarizer.ts:179-180 | The word count is the number of `split(/\s+/)` pieces, so white space at each end counts as two extra words. | `" summary summary summary summary summary summary summary summary "`: 65 characters, 8 words, a space at each end. It passes. | Count the words themselves (`text.trim().split(/\s+/)`) and reject fewer than 10. | high; not executed | `Validator.EightWordsAccepted` | `Validator.ValidateTextByWords` |
| hooks/useSummarizer.ts:101-107 | `wordFreq` is the object literal `{}`, so lower-case keys inherited from `Object.prototype` are read before any count is stored. `constructor` turns its count and every score containing it into a string. `__proto__` is never stored, yet makes the score a string. | A text with more than `maxSentences` sentences where one long word is `constructor`. The stored count becomes the string of the function `Object` followed by `1`. The sentence's score becomes the running sum followed by that string, e.g. `"0function Object() { [native code] }1"`. How a function prints depends on the engine. The NaN comparisons leave the order to the engine. | Count with own keys only, e.g. `Object.create(null)` or a `Map`. | medium; not executed | `WordFreqObject.ConstructorCounterexample` | `Summarizer.CountWords` |

=== FILE: chunker.dfy ===
/** `chunkText`: cuts a text that is too long for the model into chunks of
    whole sentence fragments, filling each chunk greedily. */
module Chunker {
  import opened JsText

  /** The accumulator after a group of fragments: `fragment + ". "` for each. */
  function Rendered(group: seq<string>): (r: string)
    ensures group != [] ==> |r| >= 2 && r[|r| - 1] == ' ' && r[|r| - 2] == '.'
  {
    if group == [] then ""
    else Rendered(group[..|group| - 1]) + group[|group| - 1] + ". "
  }

  /** The greedy grouping `chunkText` performs, stated by its outcome: the
      groups are non-empty and hold the fragments in order; inside a group,
      each fragment after the first was added because the accumulator and
      the fragment together fit in `maxChunkSize`; and each group was closed
      because the next fragment did not fit. */
  ghost predicate GreedyGroups(groups: seq<seq<string>>, fragments: seq<string>, maxChunkSize: nat) {
    Flatten(groups) == fragments && Greedy(groups, maxChunkSize)
  }

  ghost predicate Greedy(groups: seq<seq<string>>, maxChunkSize: nat) {
    && (forall i :: 0 <= i < |groups| ==> groups[i] != [] && FitsInside(groups[i], maxChunkSize))
    && (forall i :: 0 <= i < |groups| - 1 ==> Closed(groups[i], groups[i + 1][0], maxChunkSize))
  }

  /** A group is closed before `next` when `next` does not fit after it. */
  ghost predicate Closed(group: seq<string>, next: string, maxChunkSize: nat) {
    |Rendered(group)| + |next| > maxChunkSize
  }

  /** Closing a group keeps the grouping greedy. */
  lemma GreedyAppend(groups: seq<seq<string>>, current: seq<string>, maxChunkSize: nat)
    requires Greedy(groups, maxChunkSize)
    requires current != [] && FitsInside(current, maxChunkSize)
    requires groups != [] ==> Closed(groups[|groups| - 1], current[0], maxChunkSize)
    ensures Greedy(groups + [current], maxChunkSize)
  {
    var g := groups + [current];
    forall i | 0 <= i < |g| ensures g[i] != [] && FitsInside(g[i], maxChunkSize) {
      if i < |groups| {
        assert g[i] == groups[i];
      } else {
        assert g[i] == current;
      }
    }
    forall i | 0 <= i < |g| - 1 ensures Closed(g[i], g[i + 1][0], maxChunkSize) {
      assert g[i] == groups[i];
      if i + 1 < |groups| {
        assert g[i + 1] == groups[i + 1];
      } else {
        assert g[i + 1] == current;
      }
    }
  }

  ghost predicate FitsInside(group: seq<string>, maxChunkSize: nat) {
    forall j :: 1 <= j < |group| ==> |Rendered(group[..j])| + |group[j]| <= maxChunkSize
  }

  lemma FitsInsideAppend(group: seq<string>, fragment: string, maxChunkSize: nat)
    requires group != [] && FitsInside(group, maxChunkSize)
    requires |Rendered(group)| + |fragment| <= maxChunkSize
    ensures FitsInside(group + [fragment], maxChunkSize)
  {
    var g := group + [fragment];
    forall j | 1 <= j < |g| ensures |Rendered(g[..j])| + |g[j]| <= maxChunkSize {
      if j < |group| {
        assert g[..j] == group[..j] && g[j] == group[j];
      } else {
        assert g[..j] == group;
      }
    }
  }

  /** `chunkText(text, maxChunkSize)`. A text that fits comes back as the
      only chunk. A longer one is split on runs of `.`, `!` and `?`, every
      fragment kept, and the fragments are grouped greedily; each chunk is a
      group rendered with `". "` after each fragment and trimmed. */
  method ChunkText(text: string, maxChunkSize: nat) returns (chunks: seq<string>, ghost groups: seq<seq<string>>)
    ensures |text| <= maxChunkSize ==> chunks == [text]
    ensures |text| > maxChunkSize ==>
      && GreedyGroups(groups, Split(text, IsSentenceEnd), maxChunkSize)
      && Flatten(Flatten(groups)) == Without(text, IsSentenceEnd)
      && |chunks| == |groups| >= 1
      && (forall i :: 0 <= i < |chunks| ==> chunks[i] == Trim(Rendered(groups[i])) && chunks[i] != [])
  {
    if |text| <= maxChunkSize {
      return [text], [];
    }
    chunks, groups := GroupFragments(Split(text, IsSentenceEnd), maxChunkSize);
    SplitKeepsText(text, IsSentenceEnd);
    forall i | 0 <= i < |chunks| ensures chunks[i] != [] {
      ChunkNotEmpty(groups[i]);
    }
  }

  /** The loop of `chunkText` over the fragments: a fragment joins the
      current chunk when the chunk and the fragment together fit, otherwise
      the current chunk, if any, is closed and the fragment starts the next. */
  method GroupFragments(sentences: seq<string>, maxChunkSize: nat) returns (chunks: seq<string>, ghost groups: seq<seq<string>>)
    requires sentences != []
    ensures GreedyGroups(groups, sentences, maxChunkSize)
    ensures |chunks| == |groups| >= 1
    ensures forall i :: 0 <= i < |chunks| ==> chunks[i] == Trim(Rendered(groups[i]))
  {
    chunks := [];
    groups := [];
    var currentChunk := "";
    ghost var current: seq<string> := [];
    for i := 0 to |sentences|
      invariant Progress(sentences, i, chunks, groups, current, currentChunk, maxChunkSize)
    {
      var sentence := sentences[i];
      if |currentChunk| + |sentence| <= maxChunkSize {
        JoinStep(sentences, i, chunks, groups, current, currentChunk, maxChunkSize);
        currentChunk := currentChunk + sentence + ". ";
        current := current + [sentence];
      } else {
        if currentChunk != "" {
          CloseStep(sentences, i, chunks, groups, current, currentChunk, maxChunkSize);
          chunks := chunks + [Trim(currentChunk)];
          groups := groups + [current];
        } else {
          StartStep(sentences, i, chunks, groups, current, currentChunk, maxChunkSize);
        }
        currentChunk := sentence + ". ";
        current := [sentence];
      }
    }
    FinalStep(sentences, chunks, groups, current, currentChunk, maxChunkSize);
    if currentChunk != "" {
      chunks := chunks + [Trim(currentChunk)];
      groups := groups + [current];
    }
  }

  /** The state of the loop after the first `i` fragments: the closed groups
      and the open one hold them in order, `currentChunk` renders the open
      group, every closed group became one chunk, and every decision so far
      followed the greedy rule. */
  ghost predicate Progress(sentences: seq<string>, i: nat, chunks: seq<string>, groups: seq<seq<string>>,
                           current: seq<string>, currentChunk: string, maxChunkSize: nat)
  {
    && Covers(sentences, i, groups, current)
    && currentChunk == Rendered(current)
    && ChunksOf(chunks, groups)
    && GreedySoFar(groups, current, maxChunkSize)
  }

  ghost predicate Covers(sentences: seq<string>, i: nat, groups: seq<seq<string>>, current: seq<string>) {
    && i <= |sentences|
    && (current == []) == (i == 0)
    && Flatten(groups) + current == sentences[..i]
  }

  ghost predicate ChunksOf(chunks: seq<string>, groups: seq<seq<string>>) {
    |chunks| == |groups| && forall k :: 0 <= k < |chunks| ==> chunks[k] == Trim(Rendered(groups[k]))
  }

  ghost predicate GreedySoFar(groups: seq<seq<string>>, current: seq<string>, maxChunkSize: nat) {
    && Greedy(groups, maxChunkSize) && FitsInside(current, maxChunkSize)
    && (groups != [] ==> current != [] && Closed(groups[|groups| - 1], current[0], maxChunkSize))
  }

  lemma CoversNext(sentences: seq<string>, i: nat, groups: seq<seq<string>>, current: seq<string>)
    requires Covers(sentences, i, groups, current) && i < |sentences|
    ensures Covers(sentences, i + 1, groups, current + [sentences[i]])
  {
    assert sentences[..i + 1] == sentences[..i] + [sentences[i]];
  }

  lemma CoversClose(sentences: seq<string>, i: nat, groups: seq<seq<string>>, current: seq<string>)
    requires Covers(sentences, i, groups, current) && i < |sentences|
    ensures Covers(sentences, i + 1, groups + [current], [sentences[i]])
  {
    FlattenAppend(groups, current);
    assert sentences[..i + 1] == sentences[..i] + [sentences[i]];
  }

  lemma ChunksClose(chunks: seq<string>, groups: seq<seq<string>>, current: seq<string>)
    requires ChunksOf(chunks, groups)
    ensures ChunksOf(chunks + [Trim(Rendered(current))], groups + [current])
  {
    var g := groups + [current];
    var c := chunks + [Trim(Rendered(current))];
    forall k | 0 <= k < |c| ensures c[k] == Trim(Rendered(g[k])) {
      if k < |chunks| {
        assert c[k] == chunks[k] && g[k] == groups[k];
      }
    }
  }

  lemma RenderedNext(current: seq<string>, fragment: string)
    ensures Rendered(current + [fragment]) == Rendered(current) + fragment + ". "
  {
    assert (current + [fragment])[..|current|] == current;
  }

  lemma RenderedOne(fragment: string)
    ensures Rendered([fragment]) == fragment + ". "
  {
    assert [fragment][..0] == [];
  }

  lemma JoinStep(sentences: seq<string>, i: nat, chunks: seq<string>, groups: seq<seq<string>>,
                 current: seq<string>, currentChunk: string, maxChunkSize: nat)
    requires Progress(sentences, i, chunks, groups, current, currentChunk, maxChunkSize) && i < |sentences|
    requires |currentChunk| + |sentences[i]| <= maxChunkSize
    ensures Progress(sentences, i + 1, chunks, groups, current + [sentences[i]],
                     currentChunk + sentences[i] + ". ", maxChunkSize)
  {
    CoversNext(sentences, i, groups, current);
    RenderedNext(current, sentences[i]);
    if current != [] {
      FitsInsideAppend(current, sentences[i], maxChunkSize);
      assert (current + [sentences[i]])[0] == current[0];
    }
  }

  lemma CloseStep(sentences: seq<string>, i: nat, chunks: seq<string>, groups: seq<seq<string>>,
                  current: seq<string>, currentChunk: string, maxChunkSize: nat)
    requires Progress(sentences, i, chunks, groups, current, currentChunk, maxChunkSize) && i < |sentences|
    requires |currentChunk| + |sentences[i]| > maxChunkSize && currentChunk != ""
    ensures Progress(sentences, i + 1, chunks + [Trim(currentChunk)], groups + [current],
                     [sentences[i]], sentences[i] + ". ", maxChunkSize)
  {
    CoversClose(sentences, i, groups, current);
    RenderedOne(sentences[i]);
    ChunksClose(chunks, groups, current);
    GreedyClose(groups, current, sentences[i], maxChunkSize);
  }

  lemma GreedyClose(groups: seq<seq<string>>, current: seq<string>, next: string, maxChunkSize: nat)
    requires GreedySoFar(groups, current, maxChunkSize)
    requires current != [] && Closed(current, next, maxChunkSize)
    ensures GreedySoFar(groups + [current], [next], maxChunkSize)
  {
    GreedyAppend(groups, current, maxChunkSize);
  }

  lemma StartStep(sentences: seq<string>, i: nat, chunks: seq<string>, groups: seq<seq<string>>,
                  current: seq<string>, currentChunk: string, maxChunkSize: nat)
    requires Progress(sentences, i, chunks, groups, current, currentChunk, maxChunkSize) && i < |sentences|
    requires currentChunk == ""
    ensures Progress(sentences, i + 1, chunks, groups, [sentences[i]], sentences[i] + ". ", maxChunkSize)
  {
    CoversNext(sentences, i, groups, current);
    RenderedOne(sentences[i]);
    assert current + [sentences[i]] == [sentences[i]];
  }

  lemma FinalStep(sentences: seq<string>, chunks: seq<string>, groups: seq<seq<string>>,
                  current: seq<string>, currentChunk: string, maxChunkSize: nat)
    requires Progress(sentences, |sentences|, chunks, groups, current, currentChunk, maxChunkSize)
    requires sentences != []
    ensures currentChunk != ""
    ensures GreedyGroups(groups + [current], sentences, maxChunkSize)
    ensures ChunksOf(chunks + [Trim(currentChunk)], groups + [current])
  {
    FlattenAppend(groups, current);
    assert sentences[..|sentences|] == sentences;
    GreedyAppend(groups, current, maxChunkSize);
    ChunksClose(chunks, groups, current);
  }

  /** The size bound the greedy loop gives. A chunk of two or more
      fragments renders to at most `maxChunkSize + 2` characters, because
      the `". "` after its last fragment is added after the test, and is at
      most `maxChunkSize + 1` long once trimmed. A chunk of one fragment is
      that fragment and its `". "`, however long the fragment is. */
  lemma ChunkSizeBound(groups: seq<seq<string>>, fragments: seq<string>, maxChunkSize: nat, i: nat)
    requires GreedyGroups(groups, fragments, maxChunkSize) && i < |groups|
    ensures |groups[i]| >= 2 ==> |Rendered(groups[i])| <= maxChunkSize + 2
    ensures |groups[i]| >= 2 ==> |Trim(Rendered(groups[i]))| <= maxChunkSize + 1
    ensures |groups[i]| == 1 ==> Rendered(groups[i]) == groups[i][0] + ". "
  {
    GroupBound(groups[i], maxChunkSize);
  }

  lemma GroupBound(g: seq<string>, maxChunkSize: nat)
    requires g != [] && FitsInside(g, maxChunkSize)
    ensures |g| >= 2 ==> |Rendered(g)| <= maxChunkSize + 2
    ensures |g| >= 2 ==> |Trim(Rendered(g))| <= maxChunkSize + 1
    ensures |g| == 1 ==> Rendered(g) == g[0] + ". "
  {
    TrimShortens(Rendered(g));
    if |g| >= 2 {
      var n := |g| - 1;
      assert |Rendered(g[..n])| + |g[n]| <= maxChunkSize;
    } else {
      assert g == [g[0]];
      RenderedOne(g[0]);
    }
  }

  /** No chunk of the split path is empty: each holds at least a `.`. */
  lemma ChunkNotEmpty(group: seq<string>)
    requires group != []
    ensures Trim(Rendered(group)) != []
  {
    var r := Rendered(group);
    assert !IsSpace(r[|r| - 2]);
  }

  /** The greedy rule leaves no choice: only one grouping of a list of
      fragments satisfies it, so `GreedyGroups` pins down the chunks of
      `chunkText` completely. */
  lemma {:induction false} GreedyUnique(g1: seq<seq<string>>, g2: seq<seq<string>>, fragments: seq<string>, maxChunkSize: nat)
    requires GreedyGroups(g1, fragments, maxChunkSize) && GreedyGroups(g2, fragments, maxChunkSize)
    ensures g1 == g2
    decreases |fragments|
  {
    if g1 == [] || g2 == [] {
      FlattenEmpty(g1, maxChunkSize);
      FlattenEmpty(g2, maxChunkSize);
    } else {
      FirstGroupNotShorter(g1, g2, fragments, maxChunkSize);
      FirstGroupNotShorter(g2, g1, fragments, maxChunkSize);
      var first := g1[0];
      assert fragments == first + Flatten(g1[1..]);
      assert fragments == g2[0] + Flatten(g2[1..]);
      assert g2[0] == fragments[..|first|] == first;
      var rest := fragments[|first|..];
      assert Flatten(g1[1..]) == rest && Flatten(g2[1..]) == rest;
      GreedyTail(g1, maxChunkSize);
      GreedyTail(g2, maxChunkSize);
      GreedyUnique(g1[1..], g2[1..], rest, maxChunkSize);
      assert g1 == [first] + g1[1..] && g2 == [first] + g2[1..];
    }
  }

  lemma FlattenEmpty(groups: seq<seq<string>>, maxChunkSize: nat)
    requires Greedy(groups, maxChunkSize)
    ensures (Flatten(groups) == []) == (groups == [])
  {
    if groups != [] {
      assert groups[0] != [];
    }
  }

  lemma GreedyTail(groups: seq<seq<string>>, maxChunkSize: nat)
    requires Greedy(groups, maxChunkSize) && groups != []
    ensures Greedy(groups[1..], maxChunkSize)
  {
    var t := groups[1..];
    forall i | 0 <= i < |t| - 1 ensures Closed(t[i], t[i + 1][0], maxChunkSize) {
      assert t[i] == groups[i + 1] && t[i + 1] == groups[i + 2];
    }
  }

  /** Two greedy groupings of the same fragments start with groups of the
      same size: a longer first group would hold the fragment whose arrival
      closed the shorter one, and that fragment did not fit. */
  lemma FirstGroupNotShorter(g1: seq<seq<string>>, g2: seq<seq<string>>, fragments: seq<string>, maxChunkSize: nat)
    requires GreedyGroups(g1, fragments, maxChunkSize) && GreedyGroups(g2, fragments, maxChunkSize)
    requires g1 != [] && g2 != []
    ensures |g1[0]| >= |g2[0]|
  {
    FirstGroupClosed(g1, fragments, maxChunkSize);
    FirstGroupFits(g2, fragments, maxChunkSize, |g1[0]|);
  }

  /** The first group is a prefix of the fragments, and the fragment after
      it, if any, did not fit. */
  lemma FirstGroupClosed(groups: seq<seq<string>>, fragments: seq<string>, maxChunkSize: nat)
    requires GreedyGroups(groups, fragments, maxChunkSize) && groups != []
    ensures |groups[0]| <= |fragments| && groups[0] == fragments[..|groups[0]|]
    ensures |groups[0]| < |fragments| ==>
      |Rendered(groups[0])| + |fragments[|groups[0]|]| > maxChunkSize
  {
    var first := groups[0];
    var tail := groups[1..];
    assert fragments == first + Flatten(tail);
    if |first| < |fragments| {
      assert tail != [];
      assert Flatten(tail) == tail[0] + Flatten(tail[1..]);
      assert tail[0] == groups[1] && groups[1] != [];
      assert fragments[|first|] == groups[1][0];
    }
  }

  /** Every proper prefix of the first group left room for the fragment
      after it. */
  lemma FirstGroupFits(groups: seq<seq<string>>, fragments: seq<string>, maxChunkSize: nat, n: nat)
    requires GreedyGroups(groups, fragments, maxChunkSize) && groups != []
    ensures 1 <= n < |groups[0]| ==>
      n < |fragments| && |Rendered(fragments[..n])| + |fragments[n]| <= maxChunkSize
  {
    var first := groups[0];
    assert fragments == first + Flatten(groups[1..]);
    if 1 <= n < |first| {
      assert first[..n] == fragments[..n];
      assert FitsInside(first, maxChunkSize);
    }
  }
}

=== FILE: jstext.dfy ===
/** String primitives of the JavaScript runtime that the text-processing
    functions rely on: the character classes `\s` and `\w`, `String.prototype.trim`,
    an ASCII `toLowerCase`, and `split` / `match` with a one-or-more character
    class regular expression. Strings are sequences of characters. */
module JsText {

  /** ECMAScript WhiteSpace and LineTerminator code points: what `\s` matches
      and what `trim` removes. */
  predicate IsSpace(c: char) {
    c == '\t' || c == '\n' || c == '\U{000B}' || c == '\U{000C}' || c == '\r' ||
    c == ' ' || c == '\U{00A0}' || c == '\U{1680}' ||
    ('\U{2000}' <= c <= '\U{200A}') ||
    c == '\U{2028}' || c == '\U{2029}' || c == '\U{202F}' || c == '\U{205F}' ||
    c == '\U{3000}' || c == '\U{FEFF}'
  }

  /** `\w` without the `u` and `i` flags: `[A-Za-z0-9_]`. */
  predicate IsWordChar(c: char) {
    ('a' <= c <= 'z') || ('A' <= c <= 'Z') || ('0' <= c <= '9') || c == '_'
  }

  predicate IsNonWordChar(c: char) {
    !IsWordChar(c)
  }

  /** The character class `[.!?]` that ends a sentence. */
  predicate IsSentenceEnd(c: char) {
    c == '.' || c == '!' || c == '?'
  }

  predicate AllSpace(s: string) {
    forall i :: 0 <= i < |s| ==> IsSpace(s[i])
  }

  predicate NoneMatch(s: string, p: char -> bool) {
    forall i :: 0 <= i < |s| ==> !p(s[i])
  }

  /** A string that `trim` leaves alone: empty, or neither end is white space. */
  predicate IsTrimmed(s: string) {
    s == [] || (!IsSpace(s[0]) && !IsSpace(s[|s| - 1]))
  }

  // ---------------------------------------------------------------- trim

  /** The number of white-space characters `s` starts with. */
  function LeadingSpace(s: string): (n: nat)
    ensures n <= |s|
    ensures forall i :: 0 <= i < n ==> IsSpace(s[i])
    ensures n < |s| ==> !IsSpace(s[n])
    decreases |s|
  {
    if s != [] && IsSpace(s[0]) then 1 + LeadingSpace(s[1..]) else 0
  }

  /** The number of white-space characters `s` ends with. */
  function TrailingSpace(s: string): (n: nat)
    ensures n <= |s|
    ensures forall i :: |s| - n <= i < |s| ==> IsSpace(s[i])
    ensures n < |s| ==> !IsSpace(s[|s| - 1 - n])
    decreases |s|
  {
    if s != [] && IsSpace(s[|s| - 1]) then 1 + TrailingSpace(s[..|s| - 1]) else 0
  }

  /** `String.prototype.trim`: the text between the leading and the
      trailing white space. */
  function Trim(s: string): (r: string)
    ensures |r| <= |s|
    ensures IsTrimmed(r)
    ensures r == [] <==> AllSpace(s)
  {
    var start := LeadingSpace(s);
    if start == |s| then []
    else
      assert !IsSpace(s[start]);
      s[start..|s| - TrailingSpace(s)]
  }

  /** The leading white space is the run the two properties pin down. */
  lemma LeadingSpaceIs(s: string, n: nat)
    requires n <= |s| && (forall i :: 0 <= i < n ==> IsSpace(s[i])) && (n < |s| ==> !IsSpace(s[n]))
    ensures LeadingSpace(s) == n
  {
  }

  lemma TrailingSpaceIs(s: string, n: nat)
    requires n <= |s| && (forall i :: |s| - n <= i < |s| ==> IsSpace(s[i]))
    requires n < |s| ==> !IsSpace(s[|s| - 1 - n])
    ensures TrailingSpace(s) == n
  {
  }

  /** Trimming keeps a contiguous part of the characters, so it adds no
      character of a class that was absent. */
  lemma TrimNoneMatch(s: string, p: char -> bool)
    requires NoneMatch(s, p)
    ensures NoneMatch(Trim(s), p)
  {
    var r, start := Trim(s), LeadingSpace(s);
    forall i | 0 <= i < |r| ensures !p(r[i]) {
      assert r[i] == s[start + i];
    }
  }

  /** Trimming removes exactly the white space around a trimmed core. */
  lemma TrimAround(lead: string, core: string, trail: string)
    requires AllSpace(lead) && AllSpace(trail) && IsTrimmed(core)
    ensures Trim(lead + core + trail) == core
  {
    var s := lead + core + trail;
    if core == [] {
      assert AllSpace(s) by {
        forall i | 0 <= i < |s| ensures IsSpace(s[i]) {
          if i < |lead| { assert s[i] == lead[i]; } else { assert s[i] == trail[i - |lead|]; }
        }
      }
    } else {
      assert s[|lead|] == core[0];
      assert s[|s| - 1 - |trail|] == core[|core| - 1];
      forall i | 0 <= i < |lead| ensures IsSpace(s[i]) {
        assert s[i] == lead[i];
      }
      forall i | |s| - |trail| <= i < |s| ensures IsSpace(s[i]) {
        assert s[i] == trail[i - |lead| - |core|];
      }
      LeadingSpaceIs(s, |lead|);
      TrailingSpaceIs(s, |trail|);
      assert s[|lead|..|s| - |trail|] == core;
    }
  }

  /** Trimming a string that ends in white space shortens it. */
  lemma TrimShortens(s: string)
    requires s != [] && IsSpace(s[|s| - 1])
    ensures |Trim(s)| < |s|
  {
    var n := TrailingSpace(s);
    assert n > 0;
  }

  // ------------------------------------------------------------ lower case

  /** An ASCII capital becomes its small letter; every other character is
      left alone. */
  function LowerChar(c: char): (d: char)
    ensures !('A' <= d <= 'Z')
    ensures 'A' <= c <= 'Z' ==> 'a' <= d <= 'z' && d as int - c as int == 'a' as int - 'A' as int
    ensures !('A' <= c <= 'Z') ==> d == c
    ensures IsWordChar(d) <==> IsWordChar(c)
    ensures IsSentenceEnd(d) <==> IsSentenceEnd(c)
  {
    if 'A' <= c <= 'Z' then (c as int + 32) as char else c
  }

  /** Two characters that are equal or the same ASCII letter in two cases. */
  predicate SameIgnoringCase(c: char, e: char) {
    || c == e
    || ('a' <= c <= 'z' && e as int == c as int - 32)
    || ('a' <= e <= 'z' && c as int == e as int - 32)
  }

  /** `toLowerCase`, restricted to the ASCII letters. */
  function Lower(s: string): (r: string)
    ensures |r| == |s|
    ensures forall i :: 0 <= i < |s| ==> r[i] == LowerChar(s[i])
  {
    seq(|s|, i requires 0 <= i < |s| => LowerChar(s[i]))
  }

  /** Lower-casing forgets ASCII case and nothing else: two texts lower-case
      alike exactly when they differ at most in the case of ASCII letters,
      so "Dogs" and "dogs" give one word. */
  lemma LowerIgnoresCase(s: string, t: string)
    ensures Lower(s) == Lower(t) <==> |s| == |t| && forall i :: 0 <= i < |s| ==> SameIgnoringCase(s[i], t[i])
  {
    if |s| == |t| {
      if forall i :: 0 <= i < |s| ==> SameIgnoringCase(s[i], t[i]) {
        assert forall i :: 0 <= i < |s| ==> Lower(s)[i] == Lower(t)[i];
      }
      if Lower(s) == Lower(t) {
        forall i | 0 <= i < |s| ensures SameIgnoringCase(s[i], t[i]) {
          assert LowerChar(s[i]) == LowerChar(t[i]);
        }
      }
    } else {
      assert |Lower(s)| != |Lower(t)|;
    }
  }

  // ---------------------------------------------------------------- split

  /** Position of the first character satisfying `p`, or `|s|` when there is none. */
  function FirstMatch(s: string, p: char -> bool): (i: nat)
    ensures i <= |s|
    ensures NoneMatch(s[..i], p)
    ensures i < |s| ==> p(s[i])
    decreases |s|
  {
    if s == [] || p(s[0]) then 0 else 1 + FirstMatch(s[1..], p)
  }

  /** End of the maximal run of `p`-characters that starts at `i`. */
  function RunEnd(s: string, i: nat, p: char -> bool): (j: nat)
    requires i <= |s|
    ensures i <= j <= |s|
    ensures forall k :: i <= k < j ==> p(s[k])
    ensures j < |s| ==> !p(s[j])
    decreases |s| - i
  {
    if i < |s| && p(s[i]) then RunEnd(s, i + 1, p) else i
  }

  function Flatten<T>(ss: seq<seq<T>>): seq<T> {
    if ss == [] then [] else ss[0] + Flatten(ss[1..])
  }

  lemma {:induction false} FlattenAppend<T>(ss: seq<seq<T>>, last: seq<T>)
    ensures Flatten(ss + [last]) == Flatten(ss) + last
    decreases |ss|
  {
    if ss == [] {
      assert [] + [last] == [last];
      assert Flatten([last]) == last + Flatten([]);
    } else {
      assert (ss + [last])[1..] == ss[1..] + [last];
      FlattenAppend(ss[1..], last);
    }
  }

  /** The characters of `s` that do not satisfy `p`, in order. */
  function Without(s: string, p: char -> bool): (r: string)
    ensures NoneMatch(r, p)
    ensures |r| <= |s|
  {
    if s == [] then [] else (if p(s[0]) then [] else [s[0]]) + Without(s[1..], p)
  }

  /** `s.split(/[c]+/)` for a character class `c` given by `p`: the pieces
      between maximal runs of `p`-characters, left to right. A leading or
      trailing run yields an empty first or last piece, and `""` splits
      into `[""]`. No piece holds a delimiter. */
  function Split(s: string, p: char -> bool): (pieces: seq<string>)
    ensures |pieces| >= 1
    ensures forall k :: 0 <= k < |pieces| ==> NoneMatch(pieces[k], p)
    decreases |s|
  {
    var i := FirstMatch(s, p);
    if i == |s| then
      assert s[..i] == s;
      [s]
    else
      [s[..i]] + Split(s[RunEnd(s, i, p)..], p)
  }

  /** Splitting drops the delimiters and nothing else: the pieces together
      hold every other character of `s`, in order. */
  lemma {:induction false} SplitKeepsText(s: string, p: char -> bool)
    ensures Flatten(Split(s, p)) == Without(s, p)
    decreases |s|
  {
    var i := FirstMatch(s, p);
    if i == |s| {
      assert s[..i] == s;
      WithoutNoMatch(s, p);
      assert Flatten([s]) == s + Flatten([]);
    } else {
      var j := RunEnd(s, i, p);
      SplitKeepsText(s[j..], p);
      WithoutAroundRun(s, i, j, p);
      assert Split(s, p) == [s[..i]] + Split(s[j..], p);
    }
  }

  lemma {:induction false} WithoutAroundRun(s: string, i: nat, j: nat, p: char -> bool)
    requires i <= j <= |s|
    requires NoneMatch(s[..i], p)
    requires forall k :: i <= k < j ==> p(s[k])
    ensures Without(s, p) == s[..i] + Without(s[j..], p)
  {
    var a, b, c := s[..i], s[i..j], s[j..];
    assert s == a + b + c;
    assert forall k :: 0 <= k < |b| ==> p(b[k]) by {
      forall k | 0 <= k < |b| ensures p(b[k]) { assert b[k] == s[i + k]; }
    }
    WithoutAppend(a + b, c, p);
    WithoutAppend(a, b, p);
    WithoutNoMatch(a, p);
    WithoutAllMatch(b, p);
    assert Without(a + b, p) == a + [];
  }

  lemma {:induction false} WithoutAppend(a: string, b: string, p: char -> bool)
    ensures Without(a + b, p) == Without(a, p) + Without(b, p)
    decreases |a|
  {
    if a != [] {
      assert (a + b)[1..] == a[1..] + b;
      WithoutAppend(a[1..], b, p);
    } else {
      assert a + b == b;
    }
  }

  lemma {:induction false} WithoutNoMatch(s: string, p: char -> bool)
    requires NoneMatch(s, p)
    ensures Without(s, p) == s
    decreases |s|
  {
    if s != [] {
      WithoutNoMatch(s[1..], p);
    }
  }

  lemma {:induction false} WithoutAllMatch(s: string, p: char -> bool)
    requires forall k :: 0 <= k < |s| ==> p(s[k])
    ensures Without(s, p) == []
    decreases |s|
  {
    if s != [] {
      WithoutAllMatch(s[1..], p);
    }
  }

  /** A string with no delimiter is a single piece. */
  lemma SplitNoDelimiter(s: string, p: char -> bool)
    requires NoneMatch(s, p)
    ensures Split(s, p) == [s]
  {
    var i := FirstMatch(s, p);
    if i < |s| {
      assert false;
    }
  }

  /** Splitting `x + d + y`, where `d` is a delimiter, `x` holds none and `y`
      does not start with one, cuts off exactly `x`. */
  lemma SplitAfterDelimiter(x: string, d: char, y: string, p: char -> bool)
    requires NoneMatch(x, p) && p(d) && (y == [] || !p(y[0]))
    ensures Split(x + [d] + y, p) == [x] + Split(y, p)
  {
    var s := x + [d] + y;
    FirstMatchIs(s, |x|, p);
    var j := RunEnd(s, |x|, p);
    assert j == |x| + 1 by {
      assert p(s[|x|]);
      assert |x| + 1 < |s| ==> s[|x| + 1] == y[0];
    }
    assert s[..|x|] == x;
    assert s[j..] == y;
  }

  lemma {:induction false} FirstMatchIs(s: string, i: nat, p: char -> bool)
    requires i < |s| && NoneMatch(s[..i], p) && p(s[i])
    ensures FirstMatch(s, p) == i
  {
    var f := FirstMatch(s, p);
    if f < i {
      assert false;
    } else if f > i {
      assert false;
    }
  }

  /** The shape of a split: only the first and the last piece can be empty;
      the first is empty exactly when `s` is empty or starts with a delimiter,
      and the last exactly when `s` is empty or ends with one. */
  lemma SplitEmptyPieces(s: string, p: char -> bool)
    ensures var pieces := Split(s, p);
      && (forall k :: 0 < k < |pieces| - 1 ==> pieces[k] != [])
      && (pieces[0] == [] <==> s == [] || p(s[0]))
      && (pieces[|pieces| - 1] == [] <==> s == [] || p(s[|s| - 1]))
  {
    SplitFirstEmpty(s, p);
    SplitLastEmpty(s, p);
    SplitInnerNonEmpty(s, p);
  }

  lemma SplitFirstEmpty(s: string, p: char -> bool)
    ensures Split(s, p)[0] == [] <==> s == [] || p(s[0])
  {
    var i := FirstMatch(s, p);
    if i < |s| {
      RunFacts(s, i, RunEnd(s, i, p), p);
    } else {
      assert s[..i] == s;
    }
  }

  lemma {:induction false} SplitLastEmpty(s: string, p: char -> bool)
    ensures var pieces := Split(s, p); pieces[|pieces| - 1] == [] <==> s == [] || p(s[|s| - 1])
    decreases |s|
  {
    var i := FirstMatch(s, p);
    if i < |s| {
      var j := RunEnd(s, i, p);
      var t := s[j..];
      var rest := Split(t, p);
      SplitUnfold(s, i, j, p);
      assert Split(s, p)[|Split(s, p)| - 1] == rest[|rest| - 1];
      SplitLastEmpty(t, p);
      RunFacts(s, i, j, p);
      if j < |s| {
        assert t != [] && t[|t| - 1] == s[|s| - 1];
      } else {
        assert t == [];
      }
    } else {
      assert s[..i] == s;
    }
  }

  /** One step of `Split`: the piece before the first delimiter run, then
      the pieces of the rest. */
  lemma SplitUnfold(s: string, i: nat, j: nat, p: char -> bool)
    requires i == FirstMatch(s, p) && i < |s| && j == RunEnd(s, i, p)
    ensures Split(s, p) == [s[..i]] + Split(s[j..], p)
  {
  }

  lemma {:induction false} SplitInnerNonEmpty(s: string, p: char -> bool)
    ensures var pieces := Split(s, p); forall k :: 0 < k < |pieces| - 1 ==> pieces[k] != []
    decreases |s|
  {
    var pieces := Split(s, p);
    var i := FirstMatch(s, p);
    if i < |s| {
      var j := RunEnd(s, i, p);
      var rest := Split(s[j..], p);
      assert pieces == [s[..i]] + rest;
      SplitInnerNonEmpty(s[j..], p);
      if j < |s| {
        RunFacts(s, i, j, p);
        SplitFirstEmpty(s[j..], p);
      }
      forall k | 0 < k < |pieces| - 1 ensures pieces[k] != [] {
        assert pieces[k] == rest[k - 1];
      }
    }
  }

  /** What the first delimiter run of `s` says about the ends of `s`. */
  lemma RunFacts(s: string, i: nat, j: nat, p: char -> bool)
    requires i < |s| && i == FirstMatch(s, p) && j == RunEnd(s, i, p)
    ensures i == 0 <==> p(s[0])
    ensures j == |s| ==> p(s[|s| - 1])
    ensures j < |s| ==> !p(s[j..][0]) && s[j..][|s| - j - 1] == s[|s| - 1]
  {
    if i > 0 {
      assert s[..i][0] == s[0];
    }
  }

  /** Splitting is undone by joining: pieces that hold no delimiter and
      whose inner members are non-empty come back from `Split` after being
      joined with a single delimiter. */
  lemma {:induction false} SplitJoin(pieces: seq<string>, d: char, p: char -> bool)
    requires |pieces| >= 1 && p(d)
    requires forall k :: 0 <= k < |pieces| ==> NoneMatch(pieces[k], p)
    requires forall k :: 0 < k < |pieces| - 1 ==> pieces[k] != []
    ensures Split(Join(pieces, [d]), p) == pieces
    decreases |pieces|
  {
    if |pieces| == 1 {
      SplitNoDelimiter(pieces[0], p);
    } else {
      var y := Join(pieces[1..], [d]);
      if pieces[1] != [] {
        JoinStart(pieces[1..], [d]);
      } else {
        assert |pieces| == 2 && y == [];
      }
      SplitAfterDelimiter(pieces[0], d, y, p);
      assert pieces[0] + [d] + y == Join(pieces, [d]);
      SplitJoin(pieces[1..], d, p);
      assert pieces == [pieces[0]] + pieces[1..];
    }
  }

  /** Every character of `s` satisfies `p`. */
  predicate AllMatch(s: string, p: char -> bool) {
    forall i :: 0 <= i < |s| ==> p(s[i])
  }

  /** The pieces with `seps[k]` between `pieces[k]` and `pieces[k + 1]`:
      the general shape of a text around its delimiter runs. */
  function JoinRuns(pieces: seq<string>, seps: seq<string>): (r: string)
    requires |pieces| == |seps| + 1
    ensures |pieces[0]| <= |r| && r[..|pieces[0]|] == pieces[0]
  {
    if |pieces| == 1 then pieces[0]
    else pieces[0] + seps[0] + JoinRuns(pieces[1..], seps[1..])
  }

  /** The maximal run of `p`-characters from `i` ends where the two
      properties say. */
  lemma {:induction false} RunEndIs(s: string, i: nat, j: nat, p: char -> bool)
    requires i <= j <= |s|
    requires forall k :: i <= k < j ==> p(s[k])
    requires j < |s| ==> !p(s[j])
    ensures RunEnd(s, i, p) == j
    decreases j - i
  {
    if i < j {
      RunEndIs(s, i + 1, j, p);
    }
  }

  /** Splitting `x + run + y`, where `run` is a non-empty run of delimiters,
      `x` holds none and `y` does not start with one, cuts off exactly `x`. */
  lemma SplitAfterRun(x: string, run: string, y: string, p: char -> bool)
    requires NoneMatch(x, p) && run != [] && AllMatch(run, p) && (y == [] || !p(y[0]))
    ensures Split(x + run + y, p) == [x] + Split(y, p)
  {
    var s := x + run + y;
    assert s[..|x|] == x;
    assert p(s[|x|]) by { assert s[|x|] == run[0]; }
    FirstMatchIs(s, |x|, p);
    var j := |x| + |run|;
    forall k | |x| <= k < j ensures p(s[k]) {
      assert s[k] == run[k - |x|];
    }
    assert j < |s| ==> s[j] == y[0];
    RunEndIs(s, |x|, j, p);
    assert s[j..] == y;
    SplitUnfold(s, |x|, j, p);
  }

  /** Splitting undoes joining with delimiter runs of any length: pieces
      that hold no delimiter, with non-empty inner pieces, come back from
      `Split` after being joined with non-empty runs of delimiters. */
  lemma {:induction false} SplitJoinRuns(pieces: seq<string>, seps: seq<string>, p: char -> bool)
    requires |pieces| == |seps| + 1
    requires forall k :: 0 <= k < |pieces| ==> NoneMatch(pieces[k], p)
    requires forall k :: 0 < k < |pieces| - 1 ==> pieces[k] != []
    requires forall k :: 0 <= k < |seps| ==> seps[k] != [] && AllMatch(seps[k], p)
    ensures Split(JoinRuns(pieces, seps), p) == pieces
    decreases |pieces|
  {
    if |pieces| == 1 {
      SplitNoDelimiter(pieces[0], p);
    } else {
      var y := JoinRuns(pieces[1..], seps[1..]);
      if pieces[1] != [] {
        assert y[0] == pieces[1][0];
      } else {
        assert |pieces| == 2 && y == [];
      }
      SplitAfterRun(pieces[0], seps[0], y, p);
      SplitJoinRuns(pieces[1..], seps[1..], p);
      assert pieces == [pieces[0]] + pieces[1..];
    }
  }

  /** A run before the pieces is an empty first piece. */
  lemma JoinRunsCons(lead: string, pieces: seq<string>, seps: seq<string>)
    requires |pieces| == |seps| + 1
    ensures JoinRuns([[]] + pieces, [lead] + seps) == lead + JoinRuns(pieces, seps)
  {
    var front: seq<string>, runs := [[]] + pieces, [lead] + seps;
    assert front[0] == [] && front[1..] == pieces;
    assert runs[0] == lead && runs[1..] == seps;
    assert JoinRuns(front, runs) == [] + lead + JoinRuns(pieces, seps);
  }

  /** A run after the pieces is an empty last piece. */
  lemma {:induction false} JoinRunsSnoc(pieces: seq<string>, seps: seq<string>, trail: string)
    requires |pieces| == |seps| + 1
    ensures JoinRuns(pieces + [[]], seps + [trail]) == JoinRuns(pieces, seps) + trail
    decreases |pieces|
  {
    if |pieces| == 1 {
      assert (pieces + [[]])[1..] == [[]];
      assert (seps + [trail])[1..] == [];
    } else {
      assert (pieces + [[]])[1..] == pieces[1..] + [[]];
      assert (seps + [trail])[1..] == seps[1..] + [trail];
      JoinRunsSnoc(pieces[1..], seps[1..], trail);
    }
  }

  /** `Array.prototype.join(sep)`. The joined text begins with the first
      piece; `JoinLength` gives its length and `SplitJoin` undoes it. */
  function Join(pieces: seq<string>, sep: string): (r: string)
    ensures pieces != [] ==> |pieces[0]| <= |r| && r[..|pieces[0]|] == pieces[0]
  {
    if pieces == [] then []
    else if |pieces| == 1 then pieces[0]
    else pieces[0] + sep + Join(pieces[1..], sep)
  }

  function TotalLength(pieces: seq<string>): nat {
    if pieces == [] then 0 else |pieces[0]| + TotalLength(pieces[1..])
  }

  lemma {:induction false} JoinLength(pieces: seq<string>, sep: string)
    requires |pieces| >= 1
    ensures |Join(pieces, sep)| == TotalLength(pieces) + (|pieces| - 1) * |sep|
    decreases |pieces|
  {
    if |pieces| > 1 {
      JoinLength(pieces[1..], sep);
    }
  }

  lemma {:induction false} JoinStart(pieces: seq<string>, sep: string)
    requires |pieces| >= 1 && pieces[0] != []
    ensures Join(pieces, sep) != [] && Join(pieces, sep)[0] == pieces[0][0]
  {
  }

  // ---------------------------------------------------------------- words

  /** `pieces` with the empty ones left out. */
  function NonEmpty(pieces: seq<string>): (r: seq<string>)
    ensures |r| <= |pieces|
    ensures forall k :: 0 <= k < |r| ==> r[k] != []
  {
    if pieces == [] then []
    else (if pieces[0] == [] then [] else [pieces[0]]) + NonEmpty(pieces[1..])
  }

  /** Leaving pieces out keeps a property every piece has. */
  lemma {:induction false} NonEmptyNoneMatch(pieces: seq<string>, p: char -> bool)
    requires forall k :: 0 <= k < |pieces| ==> NoneMatch(pieces[k], p)
    ensures forall k :: 0 <= k < |NonEmpty(pieces)| ==> NoneMatch(NonEmpty(pieces)[k], p)
    decreases |pieces|
  {
    if pieces != [] {
      NonEmptyNoneMatch(pieces[1..], p);
      assert NoneMatch(pieces[0], p);
    }
  }

  /** Leaving out empty pieces leaves out no character. */
  lemma {:induction false} NonEmptyKeepsText(pieces: seq<string>)
    ensures Flatten(NonEmpty(pieces)) == Flatten(pieces)
    decreases |pieces|
  {
    if pieces != [] {
      NonEmptyKeepsText(pieces[1..]);
      if pieces[0] == [] {
        assert NonEmpty(pieces) == NonEmpty(pieces[1..]);
      } else {
        assert NonEmpty(pieces) == [pieces[0]] + NonEmpty(pieces[1..]);
      }
    }
  }

  /** `s.match(/\b\w+\b/g) || []`: the maximal runs of word characters,
      which are the non-empty pieces of splitting on non-word characters.
      Each token is a non-empty run of word characters, and together, in
      order, they hold every word character of `s`. */
  function Tokens(s: string): (r: seq<string>)
    ensures forall k :: 0 <= k < |r| ==> r[k] != [] && forall i :: 0 <= i < |r[k]| ==> IsWordChar(r[k][i])
    ensures Flatten(r) == Without(s, IsNonWordChar)
  {
    var pieces := Split(s, IsNonWordChar);
    NonEmptyNoneMatch(pieces, IsNonWordChar);
    SplitKeepsText(s, IsNonWordChar);
    NonEmptyKeepsText(pieces);
    NonEmpty(pieces)
  }

  /** Matching finds exactly the maximal runs of word characters: words
      separated by non-empty runs of non-word characters, with a run of
      them, possibly empty, before and after, give back those words in
      order. A token never spans a separator, however long, nor stops
      inside a word. */
  lemma TokensJoinRuns(lead: string, words: seq<string>, seps: seq<string>, trail: string)
    requires |words| == |seps| + 1
    requires forall k :: 0 <= k < |words| ==> words[k] != [] && NoneMatch(words[k], IsNonWordChar)
    requires forall k :: 0 <= k < |seps| ==> seps[k] != [] && AllMatch(seps[k], IsNonWordChar)
    requires AllMatch(lead, IsNonWordChar) && AllMatch(trail, IsNonWordChar)
    ensures Tokens(lead + JoinRuns(words, seps) + trail) == words
  {
    FramedSplit(lead, words, seps, trail);
    NonEmptyFramed(lead, words, trail);
  }

  /** The piece a run at an end of the text leaves: none, or one empty piece. */
  function Edge(run: string): seq<string> {
    if run == [] then [] else [[]]
  }

  function EdgeRun(run: string): seq<string> {
    if run == [] then [] else [run]
  }

  lemma FramedJoin(lead: string, words: seq<string>, seps: seq<string>, trail: string)
    requires |words| == |seps| + 1
    ensures |Edge(lead) + words + Edge(trail)| == |EdgeRun(lead) + seps + EdgeRun(trail)| + 1
    ensures JoinRuns(Edge(lead) + words + Edge(trail), EdgeRun(lead) + seps + EdgeRun(trail))
      == lead + JoinRuns(words, seps) + trail
  {
    var mid, midRuns := Edge(lead) + words, EdgeRun(lead) + seps;
    assert JoinRuns(mid, midRuns) == lead + JoinRuns(words, seps) by {
      if lead != [] {
        JoinRunsCons(lead, words, seps);
      } else {
        assert Edge(lead) == [] && EdgeRun(lead) == [];
        assert mid == words && midRuns == seps;
      }
    }
    if trail != [] {
      assert Edge(trail) == [[]] && EdgeRun(trail) == [trail];
      JoinRunsSnoc(mid, midRuns, trail);
    } else {
      assert Edge(trail) == [] && EdgeRun(trail) == [];
      assert mid + Edge(trail) == mid && midRuns + EdgeRun(trail) == midRuns;
    }
  }

  lemma FramedSplit(lead: string, words: seq<string>, seps: seq<string>, trail: string)
    requires |words| == |seps| + 1
    requires forall k :: 0 <= k < |words| ==> words[k] != [] && NoneMatch(words[k], IsNonWordChar)
    requires forall k :: 0 <= k < |seps| ==> seps[k] != [] && AllMatch(seps[k], IsNonWordChar)
    requires AllMatch(lead, IsNonWordChar) && AllMatch(trail, IsNonWordChar)
    ensures Split(lead + JoinRuns(words, seps) + trail, IsNonWordChar) == Edge(lead) + words + Edge(trail)
  {
    FramedJoin(lead, words, seps, trail);
    FramedPieces(lead, words, trail);
    FramedRuns(lead, seps, trail);
    SplitJoinRuns(Edge(lead) + words + Edge(trail), EdgeRun(lead) + seps + EdgeRun(trail), IsNonWordChar);
  }

  /** The framed pieces hold no non-word character, and the inner ones are
      the words, which are non-empty. */
  lemma FramedPieces(lead: string, words: seq<string>, trail: string)
    requires forall k :: 0 <= k < |words| ==> words[k] != [] && NoneMatch(words[k], IsNonWordChar)
    ensures var pieces := Edge(lead) + words + Edge(trail);
      && (forall k :: 0 <= k < |pieces| ==> NoneMatch(pieces[k], IsNonWordChar))
      && (forall k :: 0 < k < |pieces| - 1 ==> pieces[k] != [])
  {
    var front, back := Edge(lead), Edge(trail);
    var pieces := front + words + back;
    var f := |front|;
    forall k | 0 <= k < |pieces|
      ensures NoneMatch(pieces[k], IsNonWordChar) && (0 < k < |pieces| - 1 ==> pieces[k] != [])
    {
      if k < f {
        assert pieces[k] == front[k] == [];
      } else if k < f + |words| {
        assert pieces[k] == words[k - f];
      } else {
        assert pieces[k] == back[k - f - |words|] == [];
      }
    }
  }

  /** The framed separators are non-empty runs of non-word characters. */
  lemma FramedRuns(lead: string, seps: seq<string>, trail: string)
    requires forall k :: 0 <= k < |seps| ==> seps[k] != [] && AllMatch(seps[k], IsNonWordChar)
    requires AllMatch(lead, IsNonWordChar) && AllMatch(trail, IsNonWordChar)
    ensures var runs := EdgeRun(lead) + seps + EdgeRun(trail);
      forall k :: 0 <= k < |runs| ==> runs[k] != [] && AllMatch(runs[k], IsNonWordChar)
  {
    var front, back := EdgeRun(lead), EdgeRun(trail);
    var runs := front + seps + back;
    var f := |front|;
    forall k | 0 <= k < |runs| ensures runs[k] != [] && AllMatch(runs[k], IsNonWordChar) {
      if k < f {
        assert runs[k] == front[k] == lead;
      } else if k < f + |seps| {
        assert runs[k] == seps[k - f];
      } else {
        assert runs[k] == back[k - f - |seps|] == trail;
      }
    }
  }

  lemma NonEmptyFramed(lead: string, words: seq<string>, trail: string)
    requires forall k :: 0 <= k < |words| ==> words[k] != []
    ensures NonEmpty(Edge(lead) + words + Edge(trail)) == words
  {
    InnerNonEmpty(words);
    NonEmptyAppend(Edge(lead) + words, Edge(trail));
    NonEmptyAppend(Edge(lead), words);
    assert NonEmpty(Edge(lead)) == [] by {
      if lead != [] { assert NonEmpty(Edge(lead)) == [] + NonEmpty([]); }
    }
    assert NonEmpty(Edge(trail)) == [] by {
      if trail != [] { assert NonEmpty(Edge(trail)) == [] + NonEmpty([]); }
    }
  }

  /** Matching undoes joining words with spaces: the tokens of the words
      joined by single spaces are those words, so no token is cut short or
      runs into the next one. */
  lemma TokensJoin(words: seq<string>)
    requires forall k :: 0 <= k < |words| ==> words[k] != [] && forall i :: 0 <= i < |words[k]| ==> IsWordChar(words[k][i])
    ensures Tokens(Join(words, " ")) == words
  {
    if words == [] {
      assert Split([], IsNonWordChar) == [[]];
      assert NonEmpty([[]]) == [] + NonEmpty([]);
    } else {
      forall k | 0 <= k < |words| ensures NoneMatch(words[k], IsNonWordChar) {
      }
      SplitJoin(words, ' ', IsNonWordChar);
      InnerNonEmpty(words);
    }
  }

  /** The whitespace-delimited words of `s`, empty pieces left out. */
  function Words(s: string): seq<string> {
    NonEmpty(Split(s, IsSpace))
  }

  /** Every piece of a split is a word except an empty first and an empty
      last piece: `|Split(s)|` counts the words plus one for a leading and
      one for a trailing delimiter run. */
  lemma SplitCount(s: string, p: char -> bool)
    requires s != []
    ensures |Split(s, p)| == |NonEmpty(Split(s, p))| + (if p(s[0]) then 1 else 0) + (if p(s[|s| - 1]) then 1 else 0)
  {
    var pieces := Split(s, p);
    SplitEmptyPieces(s, p);
    if |pieces| == 1 {
      SplitNoDelimiter(s, p);
      assert pieces == [s];
      assert NonEmpty(pieces) == [s] + NonEmpty([]);
    } else {
      NonEmptyCount(pieces);
    }
  }

  /** In a list whose inner members are non-empty, only the two ends can be dropped. */
  lemma NonEmptyCount(pieces: seq<string>)
    requires |pieces| >= 2
    requires forall k :: 0 < k < |pieces| - 1 ==> pieces[k] != []
    ensures |NonEmpty(pieces)| == |pieces| - (if pieces[0] == [] then 1 else 0) - (if pieces[|pieces| - 1] == [] then 1 else 0)
  {
    var n := |pieces|;
    var inner := pieces[1..n - 1];
    InnerNonEmpty(inner);
    assert pieces == [pieces[0]] + inner + [pieces[n - 1]];
    NonEmptyAppend([pieces[0]] + inner, [pieces[n - 1]]);
    NonEmptyAppend([pieces[0]], inner);
    assert NonEmpty([pieces[0]]) == (if pieces[0] == [] then [] else [pieces[0]]) + NonEmpty([]);
    assert NonEmpty([pieces[n - 1]]) == (if pieces[n - 1] == [] then [] else [pieces[n - 1]]) + NonEmpty([]);
  }

  lemma {:induction false} InnerNonEmpty(pieces: seq<string>)
    requires forall k :: 0 <= k < |pieces| ==> pieces[k] != []
    ensures NonEmpty(pieces) == pieces
    decreases |pieces|
  {
    if pieces != [] {
      InnerNonEmpty(pieces[1..]);
    }
  }

  lemma {:induction false} NonEmptyAppend(a: seq<string>, b: seq<string>)
    ensures NonEmpty(a + b) == NonEmpty(a) + NonEmpty(b)
    decreases |a|
  {
    if a != [] {
      assert (a + b)[1..] == a[1..] + b;
      NonEmptyAppend(a[1..], b);
    } else {
      assert a + b == b;
    }
  }
}

=== FILE: ranking.dfy ===
/** Choosing the sentences of an extractive summary: a stable sort by
    descending score, the first `maxSentences` of it, and a second sort that
    puts those back in reading order. */
module Ranking {

  /** `{sentence, score, index}`: a trimmed sentence, its score and its
      position among the sentences of the text. */
  datatype ScoredSentence = ScoredSentence(sentence: string, score: nat, index: nat)

  /** `a` is placed before `b` by a stable descending sort of a list whose
      indices ascend: a higher score, or the same score and an earlier index. */
  predicate Outranks(a: ScoredSentence, b: ScoredSentence) {
    a.score > b.score || (a.score == b.score && a.index < b.index)
  }

  predicate IndicesAscending(s: seq<ScoredSentence>) {
    forall a, b :: 0 <= a < b < |s| ==> s[a].index < s[b].index
  }

  predicate DistinctIndices(s: seq<ScoredSentence>) {
    forall a, b :: 0 <= a < b < |s| ==> s[a].index != s[b].index
  }

  predicate SortedByRank(s: seq<ScoredSentence>) {
    forall a, b :: 0 <= a < b < |s| ==> Outranks(s[a], s[b])
  }

  // ------------------------------------------------- sort by descending score

  /** Places `x` after every element of `ranked` that scores higher and
      before the rest; `x` comes first in the input, so ties keep input order. */
  function InsertByScore(x: ScoredSentence, ranked: seq<ScoredSentence>): (r: seq<ScoredSentence>)
    ensures multiset(r) == multiset(ranked) + multiset{x}
    ensures |r| == |ranked| + 1
  {
    if ranked == [] || x.score >= ranked[0].score then [x] + ranked
    else
      assert ranked == [ranked[0]] + ranked[1..];
      [ranked[0]] + InsertByScore(x, ranked[1..])
  }

  lemma {:induction false} InsertByScoreSorted(x: ScoredSentence, ranked: seq<ScoredSentence>)
    requires SortedByRank(ranked) && DistinctIndices(ranked)
    requires forall y :: y in ranked ==> x.index < y.index
    ensures SortedByRank(InsertByScore(x, ranked)) && DistinctIndices(InsertByScore(x, ranked))
    decreases |ranked|
  {
    if ranked == [] || x.score >= ranked[0].score {
      forall b | 0 <= b < |ranked| ensures Outranks(x, ranked[b]) && x.index != ranked[b].index {
        assert ranked[b] in ranked;
        assert b > 0 ==> Outranks(ranked[0], ranked[b]);
      }
      PrependSorted(x, ranked);
    } else {
      var head := ranked[0];
      var tail := InsertByScore(x, ranked[1..]);
      InsertByScoreSorted(x, ranked[1..]);
      forall b | 0 <= b < |tail| ensures Outranks(head, tail[b]) && head.index != tail[b].index {
        assert tail[b] in multiset(tail);
        assert tail[b] == x || tail[b] in ranked[1..];
        if tail[b] != x {
          var c :| 1 <= c < |ranked| && ranked[c] == tail[b];
          assert Outranks(ranked[0], ranked[c]);
        } else {
          assert head in ranked;
        }
      }
      PrependSorted(head, tail);
    }
  }

  /** A sentence that outranks every member of a ranked list can go in front of it. */
  lemma PrependSorted(x: ScoredSentence, t: seq<ScoredSentence>)
    requires SortedByRank(t) && DistinctIndices(t)
    requires forall b :: 0 <= b < |t| ==> Outranks(x, t[b]) && x.index != t[b].index
    ensures SortedByRank([x] + t) && DistinctIndices([x] + t)
  {
    var r := [x] + t;
    forall a, b | 0 <= a < b < |r| ensures Outranks(r[a], r[b]) && r[a].index != r[b].index {
      assert r[b] == t[b - 1];
      if a > 0 {
        assert r[a] == t[a - 1];
      }
    }
  }

  /** `sentenceScores.sort((a, b) => b.score - a.score)`. ECMAScript
      requires `Array.prototype.sort` to be stable, so equal scores keep the
      order they had: on a list whose indices ascend, the result is ordered
      by score and then by index, and is a permutation of the input. */
  function RankByScore(s: seq<ScoredSentence>): (r: seq<ScoredSentence>)
    ensures multiset(r) == multiset(s)
    ensures IndicesAscending(s) ==> SortedByRank(r) && DistinctIndices(r)
  {
    if s == [] then []
    else
      var rest := RankByScore(s[1..]);
      RankByScoreStep(s, rest);
      InsertByScore(s[0], rest)
  }

  lemma RankByScoreStep(s: seq<ScoredSentence>, rest: seq<ScoredSentence>)
    requires s != [] && multiset(rest) == multiset(s[1..])
    requires IndicesAscending(s[1..]) ==> SortedByRank(rest) && DistinctIndices(rest)
    ensures multiset(InsertByScore(s[0], rest)) == multiset(s)
    ensures IndicesAscending(s) ==> SortedByRank(InsertByScore(s[0], rest)) && DistinctIndices(InsertByScore(s[0], rest))
  {
    assert s == [s[0]] + s[1..];
    if IndicesAscending(s) {
      assert IndicesAscending(s[1..]);
      forall y | y in rest ensures s[0].index < y.index {
        assert y in multiset(s[1..]);
        var c :| 0 <= c < |s[1..]| && s[1..][c] == y;
        assert s[c + 1] == y;
      }
      InsertByScoreSorted(s[0], rest);
    }
  }

  // ------------------------------------------------ sort by ascending index

  function InsertByIndex(x: ScoredSentence, sorted: seq<ScoredSentence>): (r: seq<ScoredSentence>)
    ensures multiset(r) == multiset(sorted) + multiset{x}
    ensures |r| == |sorted| + 1
  {
    if sorted == [] || x.index <= sorted[0].index then [x] + sorted
    else
      assert sorted == [sorted[0]] + sorted[1..];
      [sorted[0]] + InsertByIndex(x, sorted[1..])
  }

  lemma {:induction false} InsertByIndexAscending(x: ScoredSentence, sorted: seq<ScoredSentence>)
    requires IndicesAscending(sorted)
    requires forall y :: y in sorted ==> x.index != y.index
    ensures IndicesAscending(InsertByIndex(x, sorted))
    decreases |sorted|
  {
    if sorted == [] || x.index <= sorted[0].index {
      forall b | 0 <= b < |sorted| ensures x.index < sorted[b].index {
        assert sorted[b] in sorted;
      }
      PrependAscending(x, sorted);
    } else {
      var head := sorted[0];
      var tail := InsertByIndex(x, sorted[1..]);
      InsertByIndexAscending(x, sorted[1..]);
      forall b | 0 <= b < |tail| ensures head.index < tail[b].index {
        assert tail[b] in multiset(tail);
        assert tail[b] == x || tail[b] in sorted[1..];
        if tail[b] != x {
          var c :| 1 <= c < |sorted| && sorted[c] == tail[b];
        }
      }
      PrependAscending(head, tail);
    }
  }

  lemma PrependAscending(x: ScoredSentence, t: seq<ScoredSentence>)
    requires IndicesAscending(t)
    requires forall b :: 0 <= b < |t| ==> x.index < t[b].index
    ensures IndicesAscending([x] + t)
  {
    var r := [x] + t;
    forall a, b | 0 <= a < b < |r| ensures r[a].index < r[b].index {
      assert r[b] == t[b - 1];
      if a > 0 {
        assert r[a] == t[a - 1];
      }
    }
  }

  /** `.sort((a, b) => a.index - b.index)`: with distinct indices the result
      is the permutation of the input whose indices strictly ascend. */
  function OrderByIndex(s: seq<ScoredSentence>): (r: seq<ScoredSentence>)
    ensures multiset(r) == multiset(s)
    ensures DistinctIndices(s) ==> IndicesAscending(r)
  {
    if s == [] then []
    else
      var rest := OrderByIndex(s[1..]);
      assert s == [s[0]] + s[1..];
      OrderByIndexStep(s, rest);
      InsertByIndex(s[0], rest)
  }

  lemma OrderByIndexStep(s: seq<ScoredSentence>, rest: seq<ScoredSentence>)
    requires s != [] && multiset(rest) == multiset(s[1..])
    requires DistinctIndices(s[1..]) ==> IndicesAscending(rest)
    ensures DistinctIndices(s) ==> IndicesAscending(InsertByIndex(s[0], rest))
  {
    if DistinctIndices(s) {
      forall y | y in rest ensures s[0].index != y.index {
        assert y in multiset(s[1..]);
        var c :| 0 <= c < |s[1..]| && s[1..][c] == y;
        assert s[c + 1] == y;
      }
      assert DistinctIndices(s[1..]);
      InsertByIndexAscending(s[0], rest);
    }
  }

  // ------------------------------------------------------------- selection

  /** `.sort(by score).slice(0, maxSentences).sort(by index)`. */
  function TopSentences(scored: seq<ScoredSentence>, maxSentences: nat): (top: seq<ScoredSentence>)
    requires maxSentences <= |scored|
    ensures |top| == maxSentences
    ensures forall t :: t in top ==> t in scored
  {
    var ranked := RankByScore(scored);
    SamePermutation(ranked, scored);
    var chosen := ranked[..maxSentences];
    var top := OrderByIndex(chosen);
    SamePermutation(top, chosen);
    top
  }

  /** A permutation has the same length and the same members. */
  lemma SamePermutation(a: seq<ScoredSentence>, b: seq<ScoredSentence>)
    requires multiset(a) == multiset(b)
    ensures |a| == |b|
    ensures forall t :: t in a ==> t in b
  {
    assert |multiset(a)| == |multiset(b)|;
    forall t | t in a ensures t in b {
      assert t in multiset(a);
    }
  }

  /** The selection keeps exactly `maxSentences` of the sentences, in reading
      order; each kept sentence scores at least as much as each dropped one,
      and of two with equal scores the earlier one is kept. */
  lemma TopSentencesChoice(scored: seq<ScoredSentence>, maxSentences: nat)
    requires maxSentences <= |scored| && IndicesAscending(scored)
    ensures var top := TopSentences(scored, maxSentences);
      && |top| == maxSentences
      && IndicesAscending(top)
      && (forall t :: t in top ==> t in scored)
      && (forall t, u :: t in top && u in scored && u !in top ==>
            t.score > u.score || (t.score == u.score && t.index < u.index))
  {
    var ranked := RankByScore(scored);
    var chosen := ranked[..maxSentences];
    var top := TopSentences(scored, maxSentences);
    assert |ranked| == |scored| by {
      assert |multiset(ranked)| == |multiset(scored)|;
    }
    assert DistinctIndices(chosen);
    assert |top| == maxSentences by {
      assert |multiset(top)| == |multiset(chosen)|;
    }
    forall t | t in top ensures t in chosen && t in scored {
      assert t in multiset(chosen);
      assert t in multiset(ranked);
    }
    forall t, u | t in top && u in scored && u !in top
      ensures t.score > u.score || (t.score == u.score && t.index < u.index)
    {
      assert u in multiset(ranked);
      assert u !in multiset(chosen);
      KeptOutranksDropped(ranked, maxSentences, t, u);
    }
  }

  lemma KeptOutranksDropped(ranked: seq<ScoredSentence>, k: nat, t: ScoredSentence, u: ScoredSentence)
    requires SortedByRank(ranked) && k <= |ranked|
    requires t in ranked[..k] && u in ranked && u !in ranked[..k]
    ensures Outranks(t, u)
  {
    var a :| 0 <= a < k && ranked[..k][a] == t;
    var b :| 0 <= b < |ranked| && ranked[b] == u;
    assert b >= k;
    assert Outranks(ranked[a], ranked[b]);
  }
}

=== FILE: summarizer.dfy ===
/** `extractiveSummary`: the offline summarizer. It cuts the text into
    sentences, scores each sentence by how frequent its words are in the
    whole text, keeps the best `maxSentences` and prints them in reading
    order. */
module Summarizer {
  import opened JsText
  import opened Ranking

  /** A fragment is a sentence when its trimmed length exceeds this. */
  const MinSentenceLength: nat := 10
  /** Only words longer than this are counted. */
  const MaxIgnoredWordLength: nat := 3

  // ----------------------------------------------------------- segmentation

  /** `s.trim().length > 10`. */
  predicate IsLong(fragment: string) {
    |Trim(fragment)| > MinSentenceLength
  }

  /** `.filter(s => s.trim().length > 10)`: the long fragments and only
      those; `LongFragmentsAppend` gives their order. */
  function LongFragments(fragments: seq<string>): (r: seq<string>)
    ensures |r| <= |fragments|
    ensures forall k :: 0 <= k < |r| ==> IsLong(r[k])
    ensures forall f :: f in r <==> f in fragments && IsLong(f)
  {
    if fragments == [] then []
    else
      var rest := LongFragments(fragments[1..]);
      if IsLong(fragments[0]) then [fragments[0]] + rest else rest
  }

  /** The filter works piece by piece: filtering a concatenation filters
      each part and keeps them in their order. With the one-fragment case
      this fixes the result, order and repetitions included. */
  lemma {:induction false} LongFragmentsAppend(a: seq<string>, b: seq<string>)
    ensures LongFragments(a + b) == LongFragments(a) + LongFragments(b)
    decreases |a|
  {
    if a == [] {
      assert a + b == b;
    } else {
      assert (a + b)[1..] == a[1..] + b;
      LongFragmentsAppend(a[1..], b);
    }
  }

  /** The filter keeps a property every fragment has. */
  lemma {:induction false} LongFragmentsNoneMatch(fragments: seq<string>, p: char -> bool)
    requires forall j :: 0 <= j < |fragments| ==> NoneMatch(fragments[j], p)
    ensures forall k :: 0 <= k < |LongFragments(fragments)| ==> NoneMatch(LongFragments(fragments)[k], p)
    decreases |fragments|
  {
    if fragments != [] {
      LongFragmentsNoneMatch(fragments[1..], p);
      assert NoneMatch(fragments[0], p);
    }
  }

  /** `text.split(/[.!?]+/).filter(s => s.trim().length > 10)`: the
      untrimmed fragments between runs of sentence-ending punctuation whose
      trimmed length exceeds ten. */
  function Sentences(text: string): (r: seq<string>)
    ensures forall k :: 0 <= k < |r| ==> IsLong(r[k]) && NoneMatch(r[k], IsSentenceEnd)
    ensures forall f :: f in r <==> f in Split(text, IsSentenceEnd) && IsLong(f)
  {
    var fragments := Split(text, IsSentenceEnd);
    var r := LongFragments(fragments);
    LongFragmentsNoneMatch(fragments, IsSentenceEnd);
    r
  }

  // -------------------------------------------------------- frequency table

  /** `wordFreq[word] || 0`: the count of a key, and 0 for a missing one. */
  function Lookup(freq: map<string, nat>, w: string): (n: nat)
    ensures w in freq ==> n == freq[w]
    ensures w !in freq ==> n == 0
  {
    if w in freq then freq[w] else 0
  }

  /** The table after counting `words` in order: every word longer than
      three characters adds one to its entry. */
  function Frequency(words: seq<string>): (freq: map<string, nat>)
    ensures forall w :: w in freq ==> |w| > MaxIgnoredWordLength && freq[w] >= 1
  {
    if words == [] then map[]
    else
      var freq := Frequency(words[..|words| - 1]);
      var w := words[|words| - 1];
      if |w| > MaxIgnoredWordLength then freq[w := Lookup(freq, w) + 1] else freq
  }

  lemma FrequencyAppend(words: seq<string>, w: string)
    ensures Frequency(words + [w]) ==
      if |w| > MaxIgnoredWordLength then Frequency(words)[w := Lookup(Frequency(words), w) + 1]
      else Frequency(words)
  {
    assert (words + [w])[..|words|] == words;
  }

  /** What the table means: one key per distinct word longer than three
      characters, mapped to the number of its occurrences. */
  lemma {:induction false} FrequencyCounts(words: seq<string>)
    ensures forall w :: w in Frequency(words) <==> w in words && |w| > MaxIgnoredWordLength
    ensures forall w :: w in Frequency(words) ==> Frequency(words)[w] == multiset(words)[w] >= 1
    decreases |words|
  {
    if words != [] {
      var init, last := words[..|words| - 1], words[|words| - 1];
      FrequencyCounts(init);
      assert words == init + [last];
      assert multiset(words) == multiset(init) + multiset{last};
      forall w ensures w in words <==> w in init || w == last {
      }
      if |last| <= MaxIgnoredWordLength {
        forall w | w in Frequency(init) ensures multiset(words)[w] == multiset(init)[w] {
        }
      } else {
        forall w | w !in Frequency(init) && w in init ensures |w| <= MaxIgnoredWordLength {
        }
        assert last !in init ==> multiset(init)[last] == 0;
      }
    }
  }

  /** The counting loop of `extractiveSummary` over the words of the text,
      on a table of own keys: each word longer than three characters adds
      one to its entry, a missing entry counting as zero. The table it
      builds holds exactly the words longer than three characters, each
      mapped to its number of occurrences. */
  method CountWords(words: seq<string>) returns (freq: map<string, nat>)
    ensures freq == Frequency(words)
    ensures forall w :: w in freq <==> w in words && |w| > MaxIgnoredWordLength
    ensures forall w :: w in freq ==> freq[w] == multiset(words)[w] && freq[w] >= 1
  {
    freq := map[];
    for i := 0 to |words|
      invariant freq == Frequency(words[..i])
    {
      var word := words[i];
      FrequencyAppend(words[..i], word);
      assert words[..i + 1] == words[..i] + [word];
      if |word| > MaxIgnoredWordLength {
        freq := freq[word := Lookup(freq, word) + 1];
      }
    }
    assert words[..|words|] == words;
    FrequencyCounts(words);
  }

  // ---------------------------------------------------------------- scoring

  /** `sentenceWords.reduce((sum, word) => sum + (wordFreq[word] || 0), 0)`.
      Every word adds its count, so the score is at least the count of any
      one of its words; `ScorePositive` says when it is above zero. */
  function Score(words: seq<string>, freq: map<string, nat>): (score: nat)
    ensures forall w :: w in words ==> Lookup(freq, w) <= score
  {
    if words == [] then 0
    else Score(words[..|words| - 1], freq) + Lookup(freq, words[|words| - 1])
  }

  /** With a table whose counts are positive, a sentence scores above zero
      exactly when one of its words is in the table. */
  lemma {:induction false} ScorePositive(words: seq<string>, freq: map<string, nat>)
    requires forall w :: w in freq ==> freq[w] >= 1
    ensures Score(words, freq) > 0 <==> exists w :: w in words && w in freq
    decreases |words|
  {
    if words != [] {
      var init, last := words[..|words| - 1], words[|words| - 1];
      ScorePositive(init, freq);
      assert words == init + [last];
      if Score(init, freq) > 0 {
        var w :| w in init && w in freq;
        assert w in words;
      }
      if Score(words, freq) == 0 {
        forall w | w in words ensures w !in freq {
          assert w in init || w == last;
        }
      }
    }
  }

  /** The words of a sentence, as the scoring sees them. */
  function SentenceWords(sentence: string): seq<string> {
    Tokens(Lower(sentence))
  }

  /** `sentences.map((sentence, index) => ({sentence: sentence.trim(), score, index}))`. */
  function ScoreSentences(sentences: seq<string>, freq: map<string, nat>): (scored: seq<ScoredSentence>)
    ensures |scored| == |sentences| && IndicesAscending(scored)
    ensures forall i :: 0 <= i < |scored| ==> scored[i].index == i
  {
    seq(|sentences|, i requires 0 <= i < |sentences| =>
      ScoredSentence(Trim(sentences[i]), Score(SentenceWords(sentences[i]), freq), i))
  }

  /** The table built over the whole text: its keys are exactly the
      lower-cased words of the text longer than three characters. */
  function TextFrequency(text: string): (freq: map<string, nat>)
    ensures forall w :: w in freq <==> w in Tokens(Lower(text)) && |w| > MaxIgnoredWordLength
  {
    FrequencyCounts(Tokens(Lower(text)));
    Frequency(Tokens(Lower(text)))
  }

  /** The sentences the summary keeps, in reading order. */
  function Selected(text: string, maxSentences: nat): seq<ScoredSentence>
    requires |Sentences(text)| > maxSentences
  {
    TopSentences(ScoreSentences(Sentences(text), TextFrequency(text)), maxSentences)
  }

  // ---------------------------------------------------------------- output

  function Texts(top: seq<ScoredSentence>): (r: seq<string>)
    ensures |r| == |top|
    ensures forall i :: 0 <= i < |top| ==> r[i] == top[i].sentence
  {
    seq(|top|, i requires 0 <= i < |top| => top[i].sentence)
  }

  /** `topSentences.join('. ') + '.'`: the sentences with two characters
      between each two of them and a final full stop; `Resegment` undoes it. */
  function Render(sentences: seq<string>): (r: string)
    ensures |r| >= 1 && r[|r| - 1] == '.'
    ensures sentences != [] ==> |r| == TotalLength(sentences) + 2 * (|sentences| - 1) + 1
  {
    if sentences == [] then Join(sentences, ". ") + "."
    else
      JoinLength(sentences, ". ");
      Join(sentences, ". ") + "."
  }

  /** `extractiveSummary(text, maxSentences)`. When there are no more
      sentences than asked for, the text comes back unchanged; otherwise the
      result is the selected sentences, trimmed, joined with `". "` and
      ended with `"."`. */
  method ExtractiveSummary(text: string, maxSentences: nat) returns (summary: string)
    ensures |Sentences(text)| <= maxSentences ==> summary == text
    ensures |Sentences(text)| > maxSentences ==> summary == Render(Texts(Selected(text, maxSentences)))
  {
    var sentences := Sentences(text);
    if |sentences| <= maxSentences {
      return text;
    }
    var freq := CountWords(Tokens(Lower(text)));
    var scored := ScoreSentences(sentences, freq);
    var top := TopSentences(scored, maxSentences);
    summary := Render(Texts(top));
  }

  /** What the selection promises about the sentences it keeps: exactly
      `maxSentences` of them, in strictly ascending position; each is the
      trimmed sentence at its position with that sentence's score; each kept
      sentence scores at least as much as each dropped one, and of equal
      scores the earlier sentence is kept. */
  lemma TopOfScored(sentences: seq<string>, freq: map<string, nat>, maxSentences: nat)
    requires |sentences| > maxSentences
    ensures var scored := ScoreSentences(sentences, freq);
      var top := TopSentences(scored, maxSentences);
      && |top| == maxSentences
      && IndicesAscending(top)
      && (forall t :: t in top ==>
            && t.index < |sentences|
            && t.sentence == Trim(sentences[t.index])
            && t.score == Score(SentenceWords(sentences[t.index]), freq))
      && (forall t, u :: t in top && u in scored && u !in top ==>
            t.score > u.score || (t.score == u.score && t.index < u.index))
  {
    TopSentencesChoice(ScoreSentences(sentences, freq), maxSentences);
    ScoredMembers(sentences, freq);
  }

  /** Each scored sentence is the trimmed sentence at its index, with that
      sentence's score. */
  lemma ScoredMembers(sentences: seq<string>, freq: map<string, nat>)
    ensures forall t :: t in ScoreSentences(sentences, freq) ==>
      && t.index < |sentences|
      && t.sentence == Trim(sentences[t.index])
      && t.score == Score(SentenceWords(sentences[t.index]), freq)
  {
    var scored := ScoreSentences(sentences, freq);
    forall t | t in scored
      ensures t.index < |sentences| && t == scored[t.index]
    {
      var i :| 0 <= i < |scored| && scored[i] == t;
    }
  }

  /** The selection of `extractiveSummary`, in the terms of its text: the
      sentences are the text's, and the scores come from the table of the
      whole text. */
  lemma SelectedSentences(text: string, maxSentences: nat)
    requires |Sentences(text)| > maxSentences
    ensures var sentences, top := Sentences(text), Selected(text, maxSentences);
      && |top| == maxSentences
      && IndicesAscending(top)
      && (forall t :: t in top ==>
            && t.index < |sentences|
            && t.sentence == Trim(sentences[t.index])
            && t.score == Score(SentenceWords(sentences[t.index]), TextFrequency(text)))
      && (forall t, u :: t in top && u in ScoreSentences(sentences, TextFrequency(text)) && u !in top ==>
            t.score > u.score || (t.score == u.score && t.index < u.index))
  {
    TopOfScored(Sentences(text), TextFrequency(text), maxSentences);
  }

  // ------------------------------------------------------- re-segmentation

  /** `[pre + s0, " " + s1, ..., " " + sn]`: the fragments that splitting
      `pre + s0 + ". " + s1 + ... + ". " + sn + "."` yields before its final
      empty one. */
  function Respaced(pre: string, sentences: seq<string>): (r: seq<string>)
    requires sentences != []
    ensures |r| == |sentences|
    decreases |sentences|
  {
    [pre + sentences[0]] + (if |sentences| == 1 then [] else Respaced(" ", sentences[1..]))
  }

  lemma {:induction false} RenderRespaced(pre: string, sentences: seq<string>)
    requires sentences != []
    ensures pre + Render(sentences) == Join(Respaced(pre, sentences) + [""], ".")
    decreases |sentences|
  {
    var head := pre + sentences[0];
    if |sentences| == 1 {
      assert Respaced(pre, sentences) + [""] == [head, ""];
    } else {
      var tail := Respaced(" ", sentences[1..]) + [""];
      RenderRespaced(" ", sentences[1..]);
      assert Respaced(pre, sentences) + [""] == [head] + tail;
      assert ([head] + tail)[1..] == tail;
      Regroup(pre, sentences[0], Join(sentences[1..], ". "));
    }
  }

  lemma Regroup(pre: string, first: string, rest: string)
    ensures pre + (first + ". " + rest + ".") == (pre + first) + "." + (" " + (rest + "."))
  {
    assert ". " == "." + " ";
  }

  predicate IsSentenceText(s: string) {
    IsTrimmed(s) && NoneMatch(s, IsSentenceEnd) && |s| > MinSentenceLength
  }

  function TrimAll(fragments: seq<string>): (r: seq<string>)
    ensures |r| == |fragments|
    ensures forall i :: 0 <= i < |r| ==> r[i] == Trim(fragments[i])
  {
    seq(|fragments|, i requires 0 <= i < |fragments| => Trim(fragments[i]))
  }

  lemma TrimAllCons(head: string, fragments: seq<string>)
    ensures TrimAll([head] + fragments) == [Trim(head)] + TrimAll(fragments)
  {
  }

  lemma LongFragmentsCons(head: string, tail: seq<string>)
    requires |Trim(head)| > MinSentenceLength
    ensures LongFragments([head] + tail) == [head] + LongFragments(tail)
  {
    assert ([head] + tail)[1..] == tail;
  }

  lemma LongFragmentsOfEmpty()
    ensures LongFragments([""]) == []
  {
    assert Trim("") == "";
    assert [""][1..] == [];
  }

  lemma {:induction false} LongRespaced(pre: string, sentences: seq<string>)
    requires sentences != [] && AllSpace(pre)
    requires forall i :: 0 <= i < |sentences| ==> IsSentenceText(sentences[i])
    ensures TrimAll(LongFragments(Respaced(pre, sentences) + [""])) == sentences
    decreases |sentences|
  {
    var rest := sentences[1..];
    assert sentences == [sentences[0]] + rest;
    var head := pre + sentences[0];
    TrimHead(pre, sentences[0]);
    var tail := if rest == [] then [""] else Respaced(" ", rest) + [""];
    assert Respaced(pre, sentences) + [""] == [head] + tail;
    LongFragmentsCons(head, tail);
    if rest == [] {
      LongFragmentsOfEmpty();
      assert TrimAll([]) == [];
    } else {
      LongRespaced(" ", rest);
    }
    TrimAllCons(head, LongFragments(tail));
  }

  lemma TrimHead(pre: string, sentence: string)
    requires AllSpace(pre) && IsSentenceText(sentence)
    ensures Trim(pre + sentence) == sentence && |Trim(pre + sentence)| > MinSentenceLength
  {
    TrimAround(pre, sentence, "");
    assert pre + sentence + "" == pre + sentence;
  }

  /** Splitting a rendered summary into sentences again gives back exactly
      the sentences it was made of, once trimmed, provided each is a trimmed
      text without sentence punctuation and longer than ten characters. */
  lemma Resegment(sentences: seq<string>)
    requires forall i :: 0 <= i < |sentences| ==> IsSentenceText(sentences[i])
    ensures TrimAll(Sentences(Render(sentences))) == sentences
  {
    if sentences == [] {
      SplitJoin(["", ""], '.', IsSentenceEnd);
      assert Join(["", ""], ".") == Render(sentences);
      assert LongFragments(["", ""]) == [] + LongFragments([""]);
      assert LongFragments([""]) == [] + LongFragments([]);
    } else {
      var pieces := Respaced("", sentences) + [""];
      RenderRespaced("", sentences);
      assert "" + Render(sentences) == Render(sentences);
      RespacedPieces("", sentences);
      SplitJoin(pieces, '.', IsSentenceEnd);
      LongRespaced("", sentences);
    }
  }

  /** Pieces that `SplitJoin` gives back: no sentence punctuation in any,
      and none empty but the last. */
  predicate Rejoinable(pieces: seq<string>) {
    && (forall k :: 0 <= k < |pieces| ==> NoneMatch(pieces[k], IsSentenceEnd))
    && (forall k :: 0 <= k < |pieces| - 1 ==> pieces[k] != [])
  }

  lemma {:induction false} RespacedPieces(pre: string, sentences: seq<string>)
    requires sentences != [] && AllSpace(pre)
    requires forall i :: 0 <= i < |sentences| ==> IsSentenceText(sentences[i])
    ensures Rejoinable(Respaced(pre, sentences) + [""])
    decreases |sentences|
  {
    var head := pre + sentences[0];
    assert NoneMatch(head, IsSentenceEnd) by {
      forall i | 0 <= i < |head| ensures !IsSentenceEnd(head[i]) {
        if i < |pre| { assert IsSpace(pre[i]); } else { assert head[i] == sentences[0][i - |pre|]; }
      }
    }
    var tail := if |sentences| == 1 then [""] else Respaced(" ", sentences[1..]) + [""];
    var pieces := Respaced(pre, sentences) + [""];
    assert pieces == [head] + tail;
    if |sentences| > 1 {
      RespacedPieces(" ", sentences[1..]);
    }
    assert Rejoinable(tail);
    forall k | 1 <= k < |pieces| ensures pieces[k] == tail[k - 1] {
    }
  }

  /** The texts of the selected sentences can be segmented again: each is
      trimmed, has no sentence punctuation and is longer than ten
      characters. */
  lemma TopTextsAreSentences(sentences: seq<string>, freq: map<string, nat>, maxSentences: nat)
    requires |sentences| > maxSentences
    requires forall k :: 0 <= k < |sentences| ==> IsLong(sentences[k]) && NoneMatch(sentences[k], IsSentenceEnd)
    ensures var texts := Texts(TopSentences(ScoreSentences(sentences, freq), maxSentences));
      forall i :: 0 <= i < |texts| ==> IsSentenceText(texts[i])
  {
    TopOfScored(sentences, freq, maxSentences);
    var top := TopSentences(ScoreSentences(sentences, freq), maxSentences);
    forall i | 0 <= i < |top| ensures IsSentenceText(top[i].sentence) {
      assert top[i] in top;
      TrimNoneMatch(sentences[top[i].index], IsSentenceEnd);
    }
  }

  /** A summary, cut into sentences again and trimmed, is exactly the
      sentences that were selected. */
  lemma SummaryResegments(text: string, maxSentences: nat)
    requires |Sentences(text)| > maxSentences
    ensures TrimAll(Sentences(Render(Texts(Selected(text, maxSentences))))) == Texts(Selected(text, maxSentences))
  {
    TopTextsAreSentences(Sentences(text), TextFrequency(text), maxSentences);
    Resegment(Texts(Selected(text, maxSentences)));
  }
}

=== FILE: validator.dfy ===
/** `validateText`: decides whether a text is fit to be summarized, with an
    ordered chain of checks that each reject with their own message. */
module Validator {
  import opened JsText

  /** `APP_LIMITS` of the application's configuration. */
  const MinInputLength: nat := 50
  const MaxInputLength: nat := 5000
  const MinWordCount: nat := 10

  datatype Reason = EmptyText | TooShort | TooLong | TooFewWords {
    function Message(): string {
      match this
      case EmptyText => "Text cannot be empty"
      case TooShort => "Text is too short for meaningful summarization"
      case TooLong => "Text is too long. Please limit to 5000 characters."
      case TooFewWords => "Text should contain at least 10 words"
    }
  }

  /** `{valid: true}` or `{valid: false, message}`. */
  datatype Validation = Valid | Invalid(reason: Reason)

  /** `!text || text.trim().length === 0`: the text is all white space. */
  predicate IsBlank(text: string): (blank: bool)
    ensures blank <==> AllSpace(text)
  {
    |Trim(text)| == 0
  }

  /** `text.split(/\s+/).length`: the number of pieces, empty ones
      included, so never less than one nor than the number of words;
      `WordCountPieces` gives it exactly. */
  function WordCount(text: string): (n: nat)
    ensures n >= 1 && n >= |Words(text)|
  {
    |Split(text, IsSpace)|
  }

  /** The checks run in order: blank, then the raw length against both
      limits, then the word count; the first that fails decides. */
  function ValidateText(text: string): (v: Validation)
    ensures v.Valid? <==>
      !AllSpace(text) && MinInputLength <= |text| <= MaxInputLength && WordCount(text) >= MinWordCount
    ensures v == Invalid(EmptyText) <==> AllSpace(text)
    ensures v == Invalid(TooShort) <==> !AllSpace(text) && |text| < MinInputLength
    ensures v == Invalid(TooLong) <==> !AllSpace(text) && |text| > MaxInputLength
    ensures v == Invalid(TooFewWords) <==>
      !AllSpace(text) && MinInputLength <= |text| <= MaxInputLength && WordCount(text) < MinWordCount
  {
    if IsBlank(text) then Invalid(EmptyText)
    else if |text| < MinInputLength then Invalid(TooShort)
    else if |text| > MaxInputLength then Invalid(TooLong)
    else if WordCount(text) < MinWordCount then Invalid(TooFewWords)
    else Valid
  }

  /** The count `validateText` compares with 10 is the number of words plus
      one for leading and one for trailing white space. */
  lemma WordCountPieces(text: string)
    requires text != []
    ensures WordCount(text) == |Words(text)|
      + (if IsSpace(text[0]) then 1 else 0) + (if IsSpace(text[|text| - 1]) then 1 else 0)
  {
    SplitCount(text, IsSpace);
  }

  /** What an accepted text is guaranteed to hold: it is not blank, its raw
      length is within the limits, and it has at least eight words (not ten:
      white space at either end is counted as a word). */
  lemma ValidText(text: string)
    requires ValidateText(text) == Valid
    ensures !IsBlank(text) && MinInputLength <= |text| <= MaxInputLength
    ensures |Words(text)| >= MinWordCount - 2
  {
    WordCountPieces(text);
  }

  /** `validateText` with the word count taken over the words alone, which
      is what its message promises. */
  function ValidateTextByWords(text: string): (v: Validation)
    ensures v.Valid? ==> |Words(text)| >= MinWordCount
    ensures v.Valid? ==> ValidateText(text).Valid?
    ensures ValidateText(text).Valid? && |Words(text)| >= MinWordCount ==> v.Valid?
  {
    if IsBlank(text) then Invalid(EmptyText)
    else if |text| < MinInputLength then Invalid(TooShort)
    else if |text| > MaxInputLength then Invalid(TooLong)
    else if |Words(text)| < MinWordCount then Invalid(TooFewWords)
    else
      WordCountPieces(text);
      Valid
  }

  /** `n` copies of `w`. */
  function Copies(w: string, n: nat): (r: seq<string>)
    ensures |r| == n && forall k :: 0 <= k < n ==> r[k] == w
  {
    if n == 0 then [] else [w] + Copies(w, n - 1)
  }

  /** The pieces of `n` copies of `w` with one space between them and one
      space before and after them. */
  function PaddedPieces(w: string, n: nat): seq<string> {
    [""] + Copies(w, n) + [""]
  }

  function PaddedText(w: string, n: nat): string {
    Join(PaddedPieces(w, n), " ")
  }

  /** The padded text splits back into its pieces, and its words are the copies. */
  lemma PaddedSplit(w: string, n: nat)
    requires w != [] && NoneMatch(w, IsSpace)
    ensures Split(PaddedText(w, n), IsSpace) == PaddedPieces(w, n)
    ensures Words(PaddedText(w, n)) == Copies(w, n)
  {
    PiecesRejoin(w, n);
    PiecesWords(w, n);
  }

  lemma PiecesRejoin(w: string, n: nat)
    requires w != [] && NoneMatch(w, IsSpace)
    ensures Split(Join(PaddedPieces(w, n), " "), IsSpace) == PaddedPieces(w, n)
  {
    var copies := Copies(w, n);
    var pieces := PaddedPieces(w, n);
    forall k | 0 <= k < |pieces| ensures NoneMatch(pieces[k], IsSpace) && (0 < k < |pieces| - 1 ==> pieces[k] != []) {
      if 0 < k < |pieces| - 1 {
        assert pieces[k] == copies[k - 1];
      }
    }
    SplitJoin(pieces, ' ', IsSpace);
  }

  lemma PiecesWords(w: string, n: nat)
    requires w != []
    ensures NonEmpty(PaddedPieces(w, n)) == Copies(w, n)
  {
    var copies := Copies(w, n);
    InnerNonEmpty(copies);
    NonEmptyAppend([""] + copies, [""]);
    NonEmptyAppend([""], copies);
    assert NonEmpty([""]) == [] + NonEmpty([]);
  }

  /** The padded text has `n` words of `|w|` characters and `n + 1` spaces. */
  lemma PaddedLength(w: string, n: nat)
    ensures |PaddedText(w, n)| == n * |w| + n + 1
  {
    var pieces := PaddedPieces(w, n);
    JoinLength(pieces, " ");
    assert pieces == [""] + (Copies(w, n) + [""]);
    CopiesLength(w, n);
  }

  lemma {:induction false} CopiesLength(w: string, n: nat)
    ensures TotalLength(Copies(w, n) + [""]) == n * |w|
  {
    if n == 0 {
      assert Copies(w, n) + [""] == [""];
    } else {
      CopiesLength(w, n - 1);
      assert Copies(w, n) + [""] == [w] + (Copies(w, n - 1) + [""]);
    }
  }

  /** The padded text is not blank as soon as it holds one word. */
  lemma PaddedNotBlank(w: string, n: nat)
    requires n >= 1 && w != [] && NoneMatch(w, IsSpace)
    ensures !AllSpace(PaddedText(w, n))
  {
    var pieces := PaddedPieces(w, n);
    assert pieces[1] == w;
    JoinStart(pieces[1..], " ");
    assert PaddedText(w, n) == "" + " " + Join(pieces[1..], " ");
    assert PaddedText(w, n)[1] == w[0];
  }

  /** A text of eight words with a space at each end passes `validateText`,
      although it has fewer than ten words; the corrected check rejects it. */
  lemma EightWordsAccepted()
    ensures var text := PaddedText("summary", 8);
      && |text| == 65
      && |Words(text)| == 8
      && ValidateText(text) == Valid
      && ValidateTextByWords(text) == Invalid(TooFewWords)
  {
    var w := "summary";
    assert NoneMatch(w, IsSpace);
    PaddedSplit(w, 8);
    PaddedLength(w, 8);
    PaddedNotBlank(w, 8);
  }
}

=== FILE: wordfreqobject.dfy ===
/** The word-frequency table of `extractiveSummary` as the JavaScript it is
    written in: `wordFreq` is the object literal `{}`, so a key that the
    object inherits from `Object.prototype` is found before any count is
    stored. Lower-case tokens meet two such keys, `constructor` and
    `__proto__`; with either, the count and the score stop being numbers.
    `Summarizer.CountWords` and `Summarizer.Score`, which look up own keys
    only, are the intended behaviour. */
module WordFreqObject {
  import opened Summarizer

  /** The JavaScript values the counting and scoring code can meet. */
  datatype Value =
    | Undefined
    | Number(n: nat)
    /** A string whose numeric value is NaN, such as `"[object Object]1"`. */
    | Text
    /** The function `Object`, inherited as `constructor`. */
    | ObjectFunction
    /** `Object.prototype`, returned by the inherited `__proto__` accessor. */
    | ObjectPrototype

  /** The own properties of `wordFreq`. */
  type Record = map<string, Value>

  /** The lower-case keys `{}` inherits from `Object.prototype`; every other
      inherited name has an upper-case letter, which a token of lower-cased
      text never has. */
  predicate IsInherited(key: string) {
    IsCtor(key) || IsProto(key)
  }

  /** The two keys. The length test first adds nothing to the meaning;
      it is there to keep the proofs about these keys fast for the
      verifier, which otherwise compares characters. */
  predicate IsProto(key: string) { |key| == 9 && key == "__proto__" }
  predicate IsCtor(key: string) { |key| == 11 && key == "constructor" }

  /** `wordFreq[key]`. */
  function Get(record: Record, key: string): (v: Value)
    ensures !IsInherited(key) ==> v == (if key in record then record[key] else Undefined)
    ensures IsProto(key) ==> v == ObjectPrototype
    ensures IsCtor(key) && key !in record ==> v == ObjectFunction
  {
    if IsProto(key) then ObjectPrototype
    else if key in record then record[key]
    else if IsCtor(key) then ObjectFunction
    else Undefined
  }

  /** `v || 0`: `undefined` and `0` are falsy; a non-empty string, a function
      and an object are truthy and pass through. */
  function OrZero(v: Value): (r: Value)
    ensures r != Undefined
    ensures v.Number? || v == Undefined ==> r == Number(if v.Number? then v.n else 0)
    ensures !v.Number? && v != Undefined ==> r == v
  {
    if v == Undefined then Number(0) else v
  }

  /** JavaScript `+` on operands that are never `undefined`: two numbers add;
      otherwise an operand is a string or converts to one, and the result is
      a string that is not a number. */
  function Add(a: Value, b: Value): (r: Value)
    requires a != Undefined && b != Undefined
    ensures r.Number? <==> a.Number? && b.Number?
    ensures r.Number? ==> r.n == a.n + b.n
    ensures !r.Number? ==> r == Text
  {
    if a.Number? && b.Number? then Number(a.n + b.n) else Text
  }

  /** `wordFreq[key] = v`. The inherited `__proto__` setter ignores a value
      that is not an object, and the counts never are. */
  function Set(record: Record, key: string, v: Value): (r: Record)
    requires v.Number? || v == Text
    ensures IsProto(key) ==> r == record
    ensures !IsProto(key) ==> r == record[key := v]
  {
    if IsProto(key) then record else record[key := v]
  }

  /** One step of the counting loop on the table so far. A word longer
      than three characters gets a value there, unless it is `__proto__`,
      whose setter drops it; no other key changes. */
  function CountWord(record: Record, word: string): (r: Record)
    ensures |word| > MaxIgnoredWordLength && !IsProto(word) ==> word in r
    ensures forall w :: w != word ==> (w in r <==> w in record) && (w in r ==> r[w] == record[w])
    ensures |word| <= MaxIgnoredWordLength || IsProto(word) ==> r == record
  {
    if |word| > MaxIgnoredWordLength then Set(record, word, Add(OrZero(Get(record, word)), Number(1)))
    else record
  }

  /** The counting loop of `extractiveSummary` on the object literal `{}`:
      `CountWord` for each word in turn. */
  function CountAsWritten(words: seq<string>): (record: Record)
    ensures forall w :: w in record ==> !IsProto(w) && (record[w].Number? || record[w] == Text)
  {
    if words == [] then map[]
    else
      CountWord(CountAsWritten(words[..|words| - 1]), words[|words| - 1])
  }

  /** `sentenceWords.reduce((sum, word) => sum + (wordFreq[word] || 0), 0)`. */
  function ScoreAsWritten(words: seq<string>, record: Record): (score: Value)
    ensures score != Undefined
  {
    if words == [] then Number(0)
    else Add(ScoreAsWritten(words[..|words| - 1], record), OrZero(Get(record, words[|words| - 1])))
  }

  /** `record` holds the counts of `freq` as JavaScript numbers, under the
      same keys. */
  predicate Mirrors(record: Record, freq: map<string, nat>) {
    && (forall w :: w in record ==> w in freq && record[w] == Number(freq[w]))
    && (forall w :: w in freq ==> w in record)
  }

  /** With neither inherited key among the words, the object literal counts
      exactly as the own-key table of `Summarizer.CountWords`. */
  lemma {:induction false} CountAsWrittenAgrees(words: seq<string>)
    requires forall k :: 0 <= k < |words| ==> !IsInherited(words[k])
    ensures Mirrors(CountAsWritten(words), Frequency(words))
    decreases |words|
  {
    if words != [] {
      var prefix, word := words[..|words| - 1], words[|words| - 1];
      CountAsWrittenAgrees(prefix);
      MirrorsStep(CountAsWritten(prefix), Frequency(prefix), word);
      LastCount(words);
      LastFrequency(words);
    }
  }

  /** One more word, on the object. */
  lemma LastCount(words: seq<string>)
    requires words != []
    ensures CountAsWritten(words) == CountWord(CountAsWritten(words[..|words| - 1]), words[|words| - 1])
  {
  }

  /** One more word, on the own-key table. */
  lemma LastFrequency(words: seq<string>)
    requires words != []
    ensures var prefix, word := words[..|words| - 1], words[|words| - 1];
      Frequency(words) == if |word| > MaxIgnoredWordLength then Frequency(prefix)[word := Lookup(Frequency(prefix), word) + 1] else Frequency(prefix)
  {
  }

  lemma MirrorsStep(record: Record, freq: map<string, nat>, word: string)
    requires Mirrors(record, freq) && !IsInherited(word)
    ensures Mirrors(CountWord(record, word),
                    if |word| > MaxIgnoredWordLength then freq[word := Lookup(freq, word) + 1] else freq)
  {
    if |word| > MaxIgnoredWordLength {
      var count := Lookup(freq, word) + 1;
      assert Add(OrZero(Get(record, word)), Number(1)) == Number(count);
      MirrorsUpdate(record, freq, word, count);
    }
  }

  lemma MirrorsUpdate(record: Record, freq: map<string, nat>, key: string, count: nat)
    requires Mirrors(record, freq)
    ensures Mirrors(record[key := Number(count)], freq[key := count])
  {
  }

  /** Under the same condition the scores agree too. */
  lemma ScoreAsWrittenAgrees(words: seq<string>, textWords: seq<string>)
    requires forall k :: 0 <= k < |words| ==> !IsInherited(words[k])
    requires forall k :: 0 <= k < |textWords| ==> !IsInherited(textWords[k])
    ensures ScoreAsWritten(words, CountAsWritten(textWords)) == Number(Score(words, Frequency(textWords)))
  {
    CountAsWrittenAgrees(textWords);
    ScoreMirrors(words, CountAsWritten(textWords), Frequency(textWords));
  }

  lemma {:induction false} ScoreMirrors(words: seq<string>, record: Record, freq: map<string, nat>)
    requires forall k :: 0 <= k < |words| ==> !IsInherited(words[k])
    requires Mirrors(record, freq)
    ensures ScoreAsWritten(words, record) == Number(Score(words, freq))
    decreases |words|
  {
    if words != [] {
      ScoreMirrors(words[..|words| - 1], record, freq);
      GetMirrors(record, freq, words[|words| - 1]);
    }
  }

  lemma GetMirrors(record: Record, freq: map<string, nat>, w: string)
    requires Mirrors(record, freq) && !IsInherited(w)
    ensures OrZero(Get(record, w)) == Number(Lookup(freq, w))
  {
  }

  /** A text whose only long word is `constructor`: the inherited function
      `Object` is read as the first count, `Object + 1` is a string, and the
      sentence's score becomes that string; the own-key table counts 1. */
  lemma ConstructorCounterexample()
    ensures var words := ["constructor"];
      && CountAsWritten(words) == map["constructor" := Text]
      && ScoreAsWritten(words, CountAsWritten(words)) == Text
      && Frequency(words) == map["constructor" := 1]
      && Score(words, Frequency(words)) == 1
  {
    InheritedWord("constructor");
  }

  /** `__proto__`: the inherited accessor returns `Object.prototype`, its
      sum with 1 is a string, and the assignment is ignored, so the word is
      never counted yet still makes its sentence's score a string. */
  lemma ProtoCounterexample()
    ensures var words := ["__proto__"];
      && CountAsWritten(words) == map[]
      && ScoreAsWritten(words, CountAsWritten(words)) == Text
      && Frequency(words) == map["__proto__" := 1]
      && Score(words, Frequency(words)) == 1
  {
    InheritedWord("__proto__");
  }

  /** A text whose one word is an inherited key, on both tables. */
  lemma InheritedWord(w: string)
    requires IsInherited(w)
    ensures CountAsWritten([w]) == if IsCtor(w) then map[w := Text] else map[]
    ensures ScoreAsWritten([w], CountAsWritten([w])) == Text
    ensures Frequency([w]) == map[w := 1]
    ensures Score([w], Frequency([w])) == 1
  {
    SingleWord(w);
    if IsCtor(w) {
      assert !IsProto(w);
      assert Get(map[], w) == ObjectFunction;
      assert Get(map[w := Text], w) == Text;
    } else {
      assert Get(map[], w) == ObjectPrototype;
    }
  }

  /** A text of one counted word, on both tables. */
  lemma SingleWord(w: string)
    requires |w| > MaxIgnoredWordLength
    ensures CountAsWritten([w]) == CountWord(map[], w)
    ensures ScoreAsWritten([w], CountAsWritten([w])) == Add(Number(0), OrZero(Get(CountAsWritten([w]), w)))
    ensures Frequency([w]) == map[w := 1]
    ensures Score([w], Frequency([w])) == 1
  {
    assert [w][..0] == [];
    assert Frequency([]) == map[];
  }

  /** The comparator `(a, b) => b.score - a.score`: a string score makes the
      difference NaN, which `Array.prototype.sort` reads as "equal". */
  function CompareScores(a: Value, b: Value): (c: int)
    ensures a.Number? && b.Number? ==> c == b.n - a.n
    ensures !(a.Number? && b.Number?) ==> c == 0
  {
    if a.Number? && b.Number? then b.n - a.n else 0
  }

  /** Once a score is a string the comparator is not consistent: it calls
      the string score equal to 2 and to 1 while putting 2 before 1, which
      leaves the sort order, and so the chosen sentences, to the engine. */
  lemma ComparatorInconsistent()
    ensures CompareScores(Number(2), Text) == 0 && CompareScores(Text, Number(1)) == 0
    ensures CompareScores(Number(2), Number(1)) < 0
  {
  }
}
